=== FILE: README.md ===
# nce_qualifiers line decoder, modelled in Dafny

`nce_qualifiers` reads the list of people who qualified for an entrance
examination. The list is tab-separated text with one examinee per line.
Its core is the `Qualifiers` iterator in `src/parser.rs`:

- it pulls lines from a `LineReader`, which is either the lines of an
  in-memory string or a buffered byte stream (`src/utils.rs`);
- it decodes each line into a `RawQualifier` record (`src/types.rs`) or a
  `ParseError` that carries an error kind and the line number.

This project models that core as pure functions over immutable datatypes:

| module | models |
|---|---|
| `Wrappers` | `Option` and `Result` |
| `Types` | `u32`/`u64` as bounded integers; `RawQualifier` (`src/types.rs:14-25`) |
| `Errors` | `ParseErrorType` (the fifteen kinds, in order) and `ParseError` |
| `Text` | `str::trim`, using `char::is_whitespace`; `str::split('\t')` and its inverse `Join` |
| `Digits` | digit-width patterns `^[0-9]{lo,hi}$`; `str::parse` for unsigned integers; decimal values with leading zeros allowed |
| `LineReaders` | both `LineReader::next_line` implementations; the input is an abstract list of lines or of `read_line` outcomes |
| `Parser` | the four validators `parse_line` uses; `next_lineno`, `parse_line`, `Iterator::next`, and collecting the iterator |
| `Schema` | an independent, table-driven statement of what `parse_line` accepts and which error it raises, proved equal to `parse_line` |
| `ParserProperties` | properties of single lines: blank lines, trimming, line terminators, round trips from columns to line to record, the benchmark's sample line |
| `IteratorProperties` | what the iterator yields over a whole in-memory or streamed input |
| `LineCounting` | an advancing line counter next to the constant one the code has (see Findings) |

Title-casing (`heck::ToTitleCase`) is a function parameter
`titleCase: string -> string`. It stays uninterpreted, and nothing is
claimed about its behaviour.

The line counter is the one place where the code falls short of what it
evidently means to do. A `ParseError` carries `line: Option<u32>` and
prints it as "at line {line}" (`src/parser.rs:176-189`); the counter is
called `lineno` and is handed out by `next_lineno`; and the `u32::MAX`
guard with its `TooBig` error in `next_lineno` (`src/parser.rs:42-51`)
only matters for a counter that advances. Yet the code sets `lineno` to 1
in both constructors and never changes it, since `next_lineno` takes
`&self`. The model follows the code. `Parser.Qualifiers` keeps a constant
`lineno`, so every decoding error from the public constructors names
line 1, and `TooBig` is unreachable from them. The advancing counter
appears only in `LineCounting`, as the corrected half of the finding
below.

## Model

| member | source | states |
|---|---|---|
| Text.Trim | src/parser.rs:69 | the trimmed line neither starts nor ends with whitespace and is no longer than the line |
| Text.TrimIsSlice | src/parser.rs:69 | the trimmed line is a contiguous slice of the line, and every character cut off on either side is whitespace |
| Text.TrimAppendWhitespace | src/parser.rs:69 | appending a whitespace character does not change the trimmed text |
| Text.Split | src/parser.rs:69 | splitting on tab gives one more piece than there are tabs (so at least one piece); no piece contains a tab; joining the pieces with tabs gives the text back |
| Text.SplitJoin | src/parser.rs:69 | splitting tab-free pieces joined with tabs gives the pieces back, so split and join are mutually inverse |
| Digits.DigitsValue | src/parser.rs:104-116 | the decimal value of a digit string, leading zeros allowed, is below 10 to the power of its length |
| Digits.ParseUnsigned | src/parser.rs:104-108 | `parse` succeeds only with a value within the target type; which texts succeed is fixed by `Digits.ValidatedTextParses` and `Digits.ParseUnsignedChecked` |
| Digits.ValidatedTextParses | src/parser.rs:104-142 | text that a digit-width validator accepts always parses to its decimal value, which is below 10 to the power of the maximum width, so the `panic!` branches cannot be reached |
| Digits.ParseUnsignedChecked | src/parser.rs:114-116 | the checked multiply-then-add loop of unsigned `parse` returns exactly `ParseUnsigned`, overflow included |
| LineReaders.StripTerminator | src/utils.rs:26-33 | the line is the buffer, or the buffer minus `"\n"`, or minus `"\r\n"`; it is unchanged exactly when the buffer does not end in `'\n'`; only `'\n'` is removed when what precedes it is not `'\r'` |
| LineReaders.NextLine | src/utils.rs:13-39 | the in-memory reader yields each line as `Ok` and ends when the lines run out; the streamed reader ends on a 0-byte read, yields a non-empty read minus its terminator, and turns a failed read into `IO` with no line; every pull, item or not, leaves the reader holding exactly the entries after the first one |
| LineReaders.InMemoryNeverFails | src/utils.rs:13-17 | the in-memory reader never yields an error |
| LineReaders.StripCrLf | src/utils.rs:27-32 | content followed by `"\r\n"` comes back as the content |
| LineReaders.StripLf | src/utils.rs:27-32 | content followed by `"\n"` comes back as the content when it does not itself end in `'\r'` |
| LineReaders.StripUnterminated | src/utils.rs:26-33 | a buffer without a final `'\n'` is kept as it is, including a lone trailing `'\r'` |
| Parser.ValidatorsAreTheRegexes | src/parser.rs:53-64 | `Digits.Matches` with each of the four pattern constants accepts exactly the texts of `^[0-9]{7,7}$`, `^[0-9]{3,3}$`, `^[0-9]{1,2}$` and `^[0-9]{4,4}$`, and each pattern's widest value fits the integer type its column is parsed into |
| Parser.FromReader | src/parser.rs:22-28 | a stream-backed iterator whose first line number is 1 |
| Parser.FromStr | src/parser.rs:32-38 | an in-memory iterator whose first line number is 1 |
| Parser.NextLineno | src/parser.rs:42-51 | fails with `TooBig` at the current line exactly when the counter is at `u32::MAX`; otherwise returns the counter unchanged |
| Parser.NextOrErr | src/parser.rs:71-77 | the next piece when there is one, otherwise the given kind at the current line |
| Parser.ConvertValidated | src/parser.rs:111-121 | a validated digit column always converts to its decimal value; an unvalidated one gives its `Invalid*` kind |
| Parser.NumericField | src/parser.rs:111-147 | a digit column gives its `Missing*` kind when absent and its `Invalid*` kind when present but malformed; otherwise its decimal value, bounded by the width |
| Parser.ApplicationId | src/parser.rs:85-109 | the middle-name / id case table: fewer than three pieces gives `MissingApplicationId`; a 7-digit third piece is the id with no middle name; otherwise the third piece is the middle name (`None` when empty, title-cased otherwise) and the fourth piece must be the id (`MissingApplicationId` if absent, `InvalidApplicationId` if malformed); nothing later is examined; the id is below 10^7 |
| Parser.ParseLogistics | src/parser.rs:111-160 | seat missing or invalid, then time missing, in that order; after that the test-centre columns decide; on success the seat is its decimal value below 1000 and the time is copied verbatim |
| Parser.ParseCenter | src/parser.rs:125-160 | room missing or invalid, code missing or invalid, name missing, address missing, in that order; on success room < 100 and code < 10000 as decimal values; name and address are copied verbatim, even when empty |
| Parser.ParseFields | src/parser.rs:79-161 | every error names the current line and is never `IO` or `TooBig`; the error is `MissingSurname` exactly when there are no pieces at all; a record has id < 10^7, seat < 1000, room < 100, code < 10000 |
| Parser.ParseLine | src/parser.rs:53-162 | every error names the given line and is never `IO` or `MissingSurname`; `TooBig` is raised exactly when the counter is saturated; the bounds of a decoded record |
| Parser.Next | src/parser.rs:165-173 | `None` exactly when the reader yields `None`; a reader error is passed through unchanged; a line yields `parse_line` of it with the unchanged counter; the counter never changes |
| Parser.Collect | benches/parser.rs:25-26 | collecting the iterator gives at most one item per input entry and exactly one per in-memory line; every error is a read failure (`IO`, no line) or names the iterator's counter and is neither `IO` nor `MissingSurname` |
| Schema.ParseLineFollowsSchema | src/parser.rs:53-162 | for every line, `parse_line` gives `TooBig` when the counter is saturated; otherwise it returns the record the column table assembles when every column is well formed, and otherwise an error at the current line whose kind is raised by the first malformed or missing column in field order (no partial record) |
| Schema.ParseFieldsFollowsSchema | src/parser.rs:79-161 | the same, for the pieces of a split line |
| Schema.TailFollowsSchema | src/parser.rs:111-161 | once the id is found, the record assembled from the table equals the decoded one, and errors follow the table |
| Schema.LogisticsFollowsSchema | src/parser.rs:111-123 | the logistics pulls succeed exactly when every column is valid; their error is the first failing column's |
| Schema.CenterFollowsSchema | src/parser.rs:125-135 | the same for the room column onwards |
| Schema.CodeFollowsSchema | src/parser.rs:137-147 | the same for the test-centre code column onwards |
| Schema.NameAndAddressFollowSchema | src/parser.rs:159-160 | the same for the centre name and address, which are pulled only after all digit checks |
| ParserProperties.BlankLineMissesFirstName | src/parser.rs:69-80 | under an unsaturated counter, an empty or all-whitespace line fails with `MissingFirstName` at its line, never `MissingSurname` |
| ParserProperties.ParseLineSeesTrimmedText | src/parser.rs:69 | two lines with the same trimmed text decode identically |
| ParserProperties.TrimIgnoresTerminator | src/utils.rs:27-33 | what the streamed reader strips is whitespace to `trim` |
| ParserProperties.TerminatorIrrelevant | src/utils.rs:26-33 | a buffer decodes the same with or without its terminator |
| ParserProperties.CrLfAndLfAgree | src/utils.rs:27-32 | `"\r\n"` and `"\n"` line endings decode identically |
| ParserProperties.RowRoundTrip | src/parser.rs:69-161 | writing well-formed columns as a trimmed tab-separated line and decoding it gives the record: names title-cased, middle name optional, digits as decimal values, text columns verbatim, extra pieces ignored |
| ParserProperties.RowPiecesDecode | src/parser.rs:79-161 | the pieces of a well-formed row, followed by anything, decode to the row's record |
| ParserProperties.FixedWidthColumnsRecoverable | src/parser.rs:85-147 | the decoded id, seat and centre code, zero-padded back to their widths, are the column texts |
| ParserProperties.EmptyFinalAddressIsMissing | src/parser.rs:159-160 | in a well-formed row whose surname does not start with whitespace and whose centre name is non-empty and does not end in whitespace, decoded under an unsaturated counter, an empty address with nothing after it is trimmed away with its tab and reads as `MissingTestCenterAddr` |
| ParserProperties.BenchSampleDecodes | benches/parser.rs:7-18 | the benchmark's sample line decodes to the expected record, and the in-memory iterator yields it first |
| ParserProperties.SampleShapeDecodes | benches/parser.rs:7-10 | the sample line's shape decodes for any tab-free centre name and any tab-free, non-empty address that does not end in whitespace |
| IteratorProperties.CollectInMemory | src/parser.rs:165-173 | over in-memory lines the iterator yields one item per line, in order, each `parse_line` of that line with the constant counter |
| IteratorProperties.FromStrErrorsAtLineOne | src/parser.rs:34-51 | every error from `from_str` input names line 1 and is never `IO`, `TooBig` or `MissingSurname` |
| IteratorProperties.CollectStreamed | src/utils.rs:19-39 | over a stream the iterator yields one item per read before the first 0-byte read: `IO` without a line for a failed read, otherwise the decoded buffer minus its terminator |
| IteratorProperties.FromReaderErrors | src/parser.rs:24-51 | every error from `from_reader` input is either `IO` without a line or a decoding error at line 1, never `TooBig` |
| IteratorProperties.ZeroByteReadEnds | src/utils.rs:24-25 | nothing after a 0-byte read is ever read |
| LineCounting.TakeLineno | src/parser.rs:42-51 | a counting `next_lineno` returns what `next_lineno` returns and advances the counter, except at saturation |
| LineCounting.NextCounted | src/parser.rs:165-173 | the counting iterator yields the same items as `next`, advancing the counter after each line but not after a reader error |
| LineCounting.CollectCountedInMemory | src/parser.rs:165-173 | with a counting `next_lineno`, the i-th in-memory line (from 0) is decoded with number `lineno + i`, held at `u32::MAX` |
| LineCounting.CountedErrorsNameTheirLine | src/parser.rs:42-51 | with a counting `next_lineno` over in-memory input, an error on the n-th line names line n, held at `u32::MAX` |
| LineCounting.CollectCountedStreamed | src/utils.rs:19-39 | over a stream the counting iterator yields one item per read before the first 0-byte read, and the i-th is decoded with the start number plus the successful reads before it, held at `u32::MAX`; a failed read takes no number |
| LineCounting.CountedStreamErrorsNameTheirLine | src/parser.rs:42-51 | with a counting `next_lineno` over `from_reader` input, a failed read stays `IO` without a line and a decoding error names the count of successful reads up to and including its own |
| LineCounting.AsWrittenSecondLineNamesLineOne | src/parser.rs:42-51 | as written, the error on the second of two blank lines names line 1 |
| LineCounting.CountedSecondLineNamesLineTwo | src/parser.rs:42-51 | corrected, the same error names line 2 |

## Left out

- `src/db/mod.rs` (SQLite statements) is not part of this model: it is database I/O through a foreign library.
- `src/bin/extract.rs` is not part of this model: it is a command-line driver that opens files and unwraps.
- `benches/parser.rs` is not modelled as a harness; only its sample line is used.
- `heck::ToTitleCase` is the uninterpreted parameter `titleCase`. No casing, idempotence or non-ASCII behaviour is claimed.
- `regex` and `once_cell::Lazy` become the `Matches` predicate over a digit-width pattern. One-time initialisation has no observable effect.
- `BufRead::read_line`, UTF-8 decoding and `str::lines` splitting are abstract inputs. The in-memory reader receives the lines `str::lines` would produce. The streamed reader receives the outcomes `read_line` would produce, with `ReadOk("")` standing for a 0-byte read.
- LineReaders.NextLine: a streamed input is a finite list of read outcomes; past its end the stream is taken to read 0 bytes.
- The `std::io::Error` that an `IO` error wraps as its cause is not kept. An `IO` error is just its kind and no line.
- `Cow`, `PhantomData`, lifetimes, `error_stack::Report` wrapping, the `Display` message strings and the `error_type`/`line` accessors are left out. They are representation only; the accessors are the datatype's fields.
- `Examinee` in `src/types.rs` is unused by the core.
- Text.Trim: its contract states only that the result is trimmed and no longer. That it is the slice between the cut-off whitespace is stated separately by `Text.TrimIsSlice`, to keep the function's contract cheap for the solver.
- Parser.ParseLine: its own contract gives the error line, the excluded kinds, the `TooBig` condition and the record bounds. The full outcome, which error kind and which record, is stated by `Schema.ParseLineFollowsSchema`.
- Parser.ParseFields: likewise, its full outcome is stated by `Schema.ParseFieldsFollowsSchema`.

## Findings

| source | as written | input that shows it | evidently intended | confidence | as-written member | corrected member |
|---|---|---|---|---|---|---|
| src/parser.rs:42-51 | `next_lineno` takes `&self` and nothing assigns `lineno`, which is set to 1 in both constructors, so every line is decoded as line 1 and the `u32::MAX` guard can never fire | the in-memory input `"\n\n"` (two blank lines): the second error is `MissingFirstName` at line 1 | each line takes the next number, so the n-th line's error names line n and the counter saturates at `u32::MAX` with `TooBig` | high; not executed | LineCounting.AsWrittenSecondLineNamesLineOne | LineCounting.CountedErrorsNameTheirLine |

=== FILE: digits.dfy ===
/** Digit-width patterns `^[0-9]{lo,hi}$` and Rust's
    `str::parse` for unsigned integers. */
module Digits {
  import opened Wrappers

  predicate IsAsciiDigit(c: char) {
    '0' <= c <= '9'
  }

  predicate AllDigits(s: string) {
    forall i :: 0 <= i < |s| ==> IsAsciiDigit(s[i])
  }

  function DigitValue(c: char): (d: nat)
    requires IsAsciiDigit(c)
    ensures d < 10
  {
    (c as int) - ('0' as int)
  }

  function DigitChar(d: nat): (c: char)
    requires d < 10
    ensures IsAsciiDigit(c) && DigitValue(c) == d
  {
    (('0' as int) + d) as char
  }

  function Pow10(n: nat): (p: nat)
    ensures p >= 1
  {
    if n == 0 then 1 else 10 * Pow10(n - 1)
  }

  /** The decimal value of a digit string; leading zeros are allowed. */
  function DigitsValue(s: string): (v: nat)
    requires AllDigits(s)
    ensures v < Pow10(|s|)
    decreases |s|
  {
    if |s| == 0 then 0 else DigitsValue(s[..|s| - 1]) * 10 + DigitValue(s[|s| - 1])
  }

  /** A pattern `^[0-9]{minLen,maxLen}$`. Rust's `regex` anchors `$` at the
      very end of the text and `[0-9]` names the ASCII digits only. */
  datatype DigitPattern = DigitPattern(minLen: nat, maxLen: nat)

  predicate Matches(p: DigitPattern, s: string) {
    p.minLen <= |s| <= p.maxLen && AllDigits(s)
  }

  /** The text `u32::from_str`/`u64::from_str` reads digits from: one leading
      `+` is skipped. */
  function UnsignedDigits(s: string): string {
    if |s| > 0 && s[0] == '+' then s[1..] else s
  }

  /** `str::parse::<uN>()` where `max` is the type's largest value: `None` for
      empty text, a lone sign, any character that is not an ASCII digit, or
      a value above `max`. */
  function ParseUnsigned(s: string, max: nat): (r: Option<nat>)
    ensures r.Some? ==> r.value <= max
  {
    var d := UnsignedDigits(s);
    if |d| > 0 && AllDigits(d) && DigitsValue(d) <= max then Some(DigitsValue(d)) else None
  }

  /** Text accepted by a digit pattern with at least one digit parses, and
      its value stays below `10^maxLen`; so when that bound fits the target
      type the conversion cannot fail. */
  lemma ValidatedTextParses(p: DigitPattern, s: string, max: nat)
    requires 1 <= p.minLen && Pow10(p.maxLen) <= max + 1
    requires Matches(p, s)
    ensures ParseUnsigned(s, max) == Some(DigitsValue(s))
    ensures DigitsValue(s) < Pow10(p.maxLen)
  {
    Pow10Monotone(|s|, p.maxLen);
  }

  lemma {:induction false} Pow10Monotone(m: nat, n: nat)
    requires m <= n
    ensures Pow10(m) <= Pow10(n)
    decreases n
  {
    if m < n {
      Pow10Monotone(m, n - 1);
    }
  }

  /** A longer prefix of a digit string never has a smaller value. */
  lemma {:induction false} DigitsValuePrefixMonotone(s: string, j: nat, k: nat)
    requires AllDigits(s)
    requires j <= k <= |s|
    ensures DigitsValue(s[..j]) <= DigitsValue(s[..k])
    decreases k
  {
    if j < k {
      DigitsValuePrefixMonotone(s, j, k - 1);
      assert s[..k][..k - 1] == s[..k - 1];
    }
  }

  /** The loop `u32::from_str` runs: multiply-then-add, giving up as soon as
      the checked multiplication or addition leaves the target range. */
  method ParseUnsignedChecked(s: string, max: nat) returns (r: Option<nat>)
    ensures r == ParseUnsigned(s, max)
  {
    var digits := UnsignedDigits(s);
    if |digits| == 0 {
      return None;
    }
    var acc: nat := 0;
    var i := 0;
    while i < |digits|
      invariant 0 <= i <= |digits|
      invariant AllDigits(digits[..i])
      invariant acc == DigitsValue(digits[..i]) && acc <= max
    {
      if !IsAsciiDigit(digits[i]) {
        return None;
      }
      assert digits[..i + 1][..i] == digits[..i];
      assert AllDigits(digits[..i + 1]);
      assert DigitsValue(digits[..i + 1]) == acc * 10 + DigitValue(digits[i]);
      assert digits[..|digits|] == digits;
      if acc * 10 > max {
        if AllDigits(digits) {
          DigitsValuePrefixMonotone(digits, i + 1, |digits|);
        }
        return None;
      }
      var next := acc * 10 + DigitValue(digits[i]);
      if next > max {
        if AllDigits(digits) {
          DigitsValuePrefixMonotone(digits, i + 1, |digits|);
        }
        return None;
      }
      acc := next;
      i := i + 1;
    }
    assert digits[..i] == digits;
    return Some(acc);
  }

  /** `n` written with exactly `width` digits, zero-padded on the left. */
  function PadDecimal(n: nat, width: nat): (s: string)
    ensures |s| == width && AllDigits(s)
    decreases width
  {
    if width == 0 then "" else PadDecimal(n / 10, width - 1) + [DigitChar(n % 10)]
  }

  /** Reading back a zero-padded number gives the number when it fits. */
  lemma {:induction false} DigitsValueOfPadDecimal(n: nat, width: nat)
    requires n < Pow10(width)
    ensures DigitsValue(PadDecimal(n, width)) == n
    decreases width
  {
    if width > 0 {
      var s := PadDecimal(n, width);
      assert s[..width - 1] == PadDecimal(n / 10, width - 1);
      DigitsValueOfPadDecimal(n / 10, width - 1);
    }
  }

  /** Zero-padding a digit string's value to its own width gives the digit
      string back: a fixed-width field's value determines its text. */
  lemma {:induction false} PadDecimalOfDigitsValue(s: string)
    requires AllDigits(s)
    ensures PadDecimal(DigitsValue(s), |s|) == s
    decreases |s|
  {
    if |s| > 0 {
      var w := |s| - 1;
      var v := DigitsValue(s);
      var front := s[..w];
      assert v / 10 == DigitsValue(front);
      assert v % 10 == DigitValue(s[w]);
      PadDecimalOfDigitsValue(front);
      assert front + [s[w]] == s;
    }
  }
}

=== FILE: errors.dfy ===
/** `ParseError` and `ParseErrorType` (src/parser.rs). They live in their own
    module because both the line readers and the decoder construct them. */
module Errors {
  import opened Wrappers
  import opened Types

  /** The fifteen error kinds, in declaration order. */
  datatype ParseErrorType =
    | IO
    | TooBig
    | MissingSurname
    | MissingFirstName
    | MissingApplicationId
    | InvalidApplicationId
    | MissingSeatNumber
    | InvalidSeatNumber
    | MissingRoomAssignment
    | InvalidRoomAssignment
    | MissingTime
    | MissingTestCenterCode
    | InvalidTestCenterCode
    | MissingTestCenterName
    | MissingTestCenterAddr

  /** An error kind and, when known, the line it was detected on. */
  datatype ParseError = ParseError(kind: ParseErrorType, line: Option<u32>)
}

=== FILE: iterator_properties.dfy ===
/** What the iterator yields over a whole input, for both readers. */
module IteratorProperties {
  import opened Wrappers
  import opened Types
  import opened Errors
  import opened LineReaders
  import opened Parser

  // ---------------------------------------------------------------------
  // In-memory input

  /** Over in-memory lines the iterator yields one item per line, in order,
      each the decoding of that line with the iterator's (constant) line
      number. */
  lemma {:induction false} CollectInMemory(lines: seq<string>, lineno: u32, titleCase: string -> string)
    ensures |Collect(Qualifiers(lineno, InMemory(lines)), titleCase)| == |lines|
    ensures forall i :: 0 <= i < |lines| ==>
              Collect(Qualifiers(lineno, InMemory(lines)), titleCase)[i] == ParseLine(lines[i], lineno, titleCase)
    decreases |lines|
  {
    if |lines| > 0 {
      CollectInMemoryStep(lines, lineno, titleCase);
      CollectInMemory(lines[1..], lineno, titleCase);
      InMemoryItemsShift(lines, Collect(Qualifiers(lineno, InMemory(lines)), titleCase),
                         Collect(Qualifiers(lineno, InMemory(lines[1..])), titleCase), lineno, titleCase);
    }
  }

  /** One step of the iterator over in-memory lines. */
  lemma CollectInMemoryStep(lines: seq<string>, lineno: u32, titleCase: string -> string)
    requires |lines| > 0
    ensures Collect(Qualifiers(lineno, InMemory(lines)), titleCase)
         == [ParseLine(lines[0], lineno, titleCase)] + Collect(Qualifiers(lineno, InMemory(lines[1..])), titleCase)
  {
    var s := Next(Qualifiers(lineno, InMemory(lines)), titleCase);
    assert s.state == Qualifiers(lineno, InMemory(lines[1..]));
  }

  /** The items of the first line followed by those of the rest are the
      items of every line. */
  lemma InMemoryItemsShift(lines: seq<string>, c: seq<Result<RawQualifier, ParseError>>,
                           rest: seq<Result<RawQualifier, ParseError>>, lineno: u32, titleCase: string -> string)
    requires |lines| > 0 && c == [ParseLine(lines[0], lineno, titleCase)] + rest
    requires |rest| == |lines| - 1
    requires forall i :: 0 <= i < |lines| - 1 ==> rest[i] == ParseLine(lines[1..][i], lineno, titleCase)
    ensures |c| == |lines|
    ensures forall i :: 0 <= i < |lines| ==> c[i] == ParseLine(lines[i], lineno, titleCase)
  {
    forall i | 0 <= i < |lines|
      ensures c[i] == ParseLine(lines[i], lineno, titleCase)
    {
      if i > 0 {
        assert c[i] == rest[i - 1];
        assert lines[1..][i - 1] == lines[i];
      }
    }
  }

  /** Every error from in-memory input names line 1: the counter starts
      there and never moves, so `TooBig` cannot occur; nor can `IO` or
      `MissingSurname`. */
  lemma FromStrErrorsAtLineOne(lines: seq<string>, titleCase: string -> string)
    ensures forall i :: 0 <= i < |Collect(FromStr(lines), titleCase)| && Collect(FromStr(lines), titleCase)[i].Failure? ==>
              && Collect(FromStr(lines), titleCase)[i].error.line == Some(1)
              && Collect(FromStr(lines), titleCase)[i].error.kind !in {IO, TooBig, MissingSurname}
  {
    CollectInMemory(lines, 1, titleCase);
  }

  // ---------------------------------------------------------------------
  // Streamed input

  /** How many outcomes the streamed reader turns into items: those before
      the first zero-byte read (or all of them). */
  function EndIndex(outcomes: seq<ReadOutcome>): (e: nat)
    ensures e <= |outcomes|
    ensures forall j :: 0 <= j < e ==> outcomes[j] != ReadOk("")
    ensures e < |outcomes| ==> outcomes[e] == ReadOk("")
    decreases |outcomes|
  {
    if |outcomes| == 0 || outcomes[0] == ReadOk("") then 0
    else 1 + EndIndex(outcomes[1..])
  }

  /** The item one read outcome stands for. */
  function Decoded(o: ReadOutcome, lineno: u32, titleCase: string -> string): Result<RawQualifier, ParseError> {
    match o
    case ReadFailed => Failure(ParseError(IO, None))
    case ReadOk(buf) => ParseLine(StripTerminator(buf), lineno, titleCase)
  }

  /** Over a stream the iterator yields one item per read up to the first
      zero-byte read: a failed read becomes an `IO` error without a line,
      any other read the decoding of its buffer minus its terminator. */
  lemma {:induction false} CollectStreamed(outcomes: seq<ReadOutcome>, lineno: u32, titleCase: string -> string)
    ensures |Collect(Qualifiers(lineno, Streamed(outcomes)), titleCase)| == EndIndex(outcomes)
    ensures forall i :: 0 <= i < EndIndex(outcomes) ==>
              Collect(Qualifiers(lineno, Streamed(outcomes)), titleCase)[i] == Decoded(outcomes[i], lineno, titleCase)
    decreases |outcomes|
  {
    var q := Qualifiers(lineno, Streamed(outcomes));
    if |outcomes| > 0 && outcomes[0] != ReadOk("") {
      var s := Next(q, titleCase);
      assert s.state == Qualifiers(lineno, Streamed(outcomes[1..]));
      CollectStreamed(outcomes[1..], lineno, titleCase);
      var c := Collect(q, titleCase);
      assert c == [Decoded(outcomes[0], lineno, titleCase)] + Collect(s.state, titleCase);
      forall i | 0 <= i < EndIndex(outcomes)
        ensures c[i] == Decoded(outcomes[i], lineno, titleCase)
      {
        if i > 0 {
          assert c[i] == Collect(s.state, titleCase)[i - 1];
          assert outcomes[1..][i - 1] == outcomes[i];
        }
      }
    }
  }

  /** Every error from a stream is either a read failure (`IO`, no line) or
      a decoding error naming line 1, never `TooBig`. */
  lemma FromReaderErrors(outcomes: seq<ReadOutcome>, titleCase: string -> string)
    ensures forall i :: 0 <= i < |Collect(FromReader(outcomes), titleCase)| && Collect(FromReader(outcomes), titleCase)[i].Failure? ==>
              || Collect(FromReader(outcomes), titleCase)[i].error == ParseError(IO, None)
              || (&& Collect(FromReader(outcomes), titleCase)[i].error.line == Some(1)
                  && Collect(FromReader(outcomes), titleCase)[i].error.kind !in {IO, TooBig, MissingSurname})
  {
    CollectStreamed(outcomes, 1, titleCase);
  }

  /** A zero-byte read ends the iteration: nothing after it is read. */
  lemma {:induction false} ZeroByteReadEnds(before: seq<ReadOutcome>, after: seq<ReadOutcome>, lineno: u32,
                                            titleCase: string -> string)
    requires forall j :: 0 <= j < |before| ==> before[j] != ReadOk("")
    ensures Collect(Qualifiers(lineno, Streamed(before + [ReadOk("")] + after)), titleCase)
         == Collect(Qualifiers(lineno, Streamed(before + [ReadOk("")])), titleCase)
    decreases |before|
  {
    if |before| > 0 {
      assert (before + [ReadOk("")] + after)[1..] == before[1..] + [ReadOk("")] + after;
      assert (before + [ReadOk("")])[1..] == before[1..] + [ReadOk("")];
      ZeroByteReadEnds(before[1..], after, lineno, titleCase);
    }
  }
}

=== FILE: line_counting.dfy ===
/** A line counter that advances: each decoded line takes the current number
    and moves it on, and once the counter reaches `u32::MAX` every further
    line fails with `TooBig`. The source points that way: a `ParseError`
    carries `line: Option<u32>` and prints it as "at line {line}", the
    counter is called `lineno` and handed out by `next_lineno`, and the
    `u32::MAX` guard there only matters for a counter that moves. The
    iterator in `Parser`, like the code, never advances its counter; this
    module sets the two side by side. */
module LineCounting {
  import opened Wrappers
  import opened Types
  import opened Errors
  import opened LineReaders
  import opened Parser
  import IteratorProperties
  import ParserProperties

  /** `next_lineno` with the counter advanced past the line it hands out;
      a saturated counter stays where it is. */
  function TakeLineno(lineno: u32): (r: (Result<u32, ParseError>, u32))
    ensures r.0 == NextLineno(lineno)
    ensures r.0.Success? ==> r.1 == lineno + 1
    ensures r.0.Failure? ==> r.1 == lineno == U32_MAX
  {
    if lineno == U32_MAX then (Failure(ParseError(TooBig, Some(lineno))), lineno)
    else (Success(lineno), lineno + 1)
  }

  /** `Iterator::next` with a counting `next_lineno`: a reader error leaves
      the counter alone (no line was assigned), a line takes the current
      number. */
  function NextCounted(q: Qualifiers, titleCase: string -> string): (s: Step)
    ensures s.state.reader == NextLine(q.reader).rest
    ensures s.item.None? <==> NextLine(q.reader).item.None?
    ensures NextLine(q.reader).item.Some? && NextLine(q.reader).item.value.Failure? ==>
              s.item == Some(Failure(NextLine(q.reader).item.value.error)) && s.state.lineno == q.lineno
    ensures NextLine(q.reader).item.Some? && NextLine(q.reader).item.value.Success? ==>
              && s.item == Some(ParseLine(NextLine(q.reader).item.value.value, q.lineno, titleCase))
              && s.state.lineno == if q.lineno == U32_MAX then q.lineno else q.lineno + 1
  {
    var pulled := NextLine(q.reader);
    match pulled.item
    case None => Step(None, Qualifiers(q.lineno, pulled.rest))
    case Some(Failure(err)) => Step(Some(Failure(err)), Qualifiers(q.lineno, pulled.rest))
    case Some(Success(line)) =>
      Step(Some(ParseLine(line, q.lineno, titleCase)), Qualifiers(TakeLineno(q.lineno).1, pulled.rest))
  }

  function CollectCounted(q: Qualifiers, titleCase: string -> string): seq<Result<RawQualifier, ParseError>>
    decreases Remaining(q.reader)
  {
    var s := NextCounted(q, titleCase);
    match s.item
    case None => []
    case Some(item) => [item] + CollectCounted(s.state, titleCase)
  }

  function Min(a: int, b: int): int {
    if a <= b then a else b
  }

  /** Over in-memory lines the counting iterator decodes the `i`-th line
      (from 0) with number `lineno + i`, held at `u32::MAX` once it gets
      there. */
  lemma {:induction false} CollectCountedInMemory(lines: seq<string>, lineno: u32, titleCase: string -> string)
    ensures |CollectCounted(Qualifiers(lineno, InMemory(lines)), titleCase)| == |lines|
    ensures forall i :: 0 <= i < |lines| ==>
              CollectCounted(Qualifiers(lineno, InMemory(lines)), titleCase)[i]
              == ParseLine(lines[i], Min(lineno + i, U32_MAX), titleCase)
    decreases |lines|
  {
    if |lines| > 0 {
      var after: u32 := if lineno == U32_MAX then lineno else lineno + 1;
      CollectCountedStep(lines, lineno, titleCase);
      CollectCountedInMemory(lines[1..], after, titleCase);
      var decode := (l: string, n: u32) => ParseLine(l, n, titleCase);
      CountedItemsShift(decode, lines, CollectCounted(Qualifiers(lineno, InMemory(lines)), titleCase),
                        CollectCounted(Qualifiers(after, InMemory(lines[1..])), titleCase), lineno, after);
    }
  }

  /** The first line decoded with `lineno`, followed by the rest decoded
      from the advanced counter, is every line decoded with its own number
      (for any way `decode` of decoding a line under a number). */
  lemma CountedItemsShift<T>(decode: (string, u32) -> T, lines: seq<string>, c: seq<T>, rest: seq<T>,
                             lineno: u32, after: u32)
    requires |lines| > 0 && c == [decode(lines[0], lineno)] + rest
    requires after == if lineno == U32_MAX then lineno else lineno + 1
    requires |rest| == |lines| - 1
    requires forall i :: 0 <= i < |lines| - 1 ==> rest[i] == decode(lines[1..][i], Min(after + i, U32_MAX))
    ensures |c| == |lines|
    ensures forall i :: 0 <= i < |lines| ==> c[i] == decode(lines[i], Min(lineno + i, U32_MAX))
  {
    forall i | 0 <= i < |lines|
      ensures c[i] == decode(lines[i], Min(lineno + i, U32_MAX))
    {
      if i > 0 {
        assert c[i] == rest[i - 1];
        assert lines[1..][i - 1] == lines[i];
        assert Min(after + (i - 1), U32_MAX) == Min(lineno + i, U32_MAX);
      }
    }
  }

  /** One step of the counting iterator over in-memory lines. */
  lemma CollectCountedStep(lines: seq<string>, lineno: u32, titleCase: string -> string)
    requires |lines| > 0
    ensures CollectCounted(Qualifiers(lineno, InMemory(lines)), titleCase)
         == [ParseLine(lines[0], lineno, titleCase)]
            + CollectCounted(Qualifiers(if lineno == U32_MAX then lineno else lineno + 1, InMemory(lines[1..])), titleCase)
  {
    var s := NextCounted(Qualifiers(lineno, InMemory(lines)), titleCase);
    assert s.state == Qualifiers(if lineno == U32_MAX then lineno else lineno + 1, InMemory(lines[1..]));
  }

  /** With the counter advancing, an error on the `n`-th line of in-memory
      input names line `n`. */
  lemma CountedErrorsNameTheirLine(lines: seq<string>, titleCase: string -> string)
    ensures forall i :: 0 <= i < |CollectCounted(FromStr(lines), titleCase)| && CollectCounted(FromStr(lines), titleCase)[i].Failure? ==>
              CollectCounted(FromStr(lines), titleCase)[i].error.line == Some(Min(i + 1, U32_MAX))
  {
    CollectCountedInMemory(lines, 1, titleCase);
  }

  /** How many of the first `i` read outcomes are successful reads, i.e. how
      many line numbers a counting iterator has handed out before the
      `i`-th outcome. */
  function LinesBefore(outcomes: seq<ReadOutcome>, i: nat): (n: nat)
    requires i <= |outcomes|
    ensures n <= i
    decreases i
  {
    if i == 0 then 0
    else (if outcomes[0].ReadOk? then 1 else 0) + LinesBefore(outcomes[1..], i - 1)
  }

  /** Reference list of what a counting iterator yields over a stream, for
      any way `decode` of turning one read outcome and its number into an
      item: one item per read before the first 0-byte read, a successful
      read taking the current number and moving the counter on, a failed
      read leaving it alone. */
  function CountedItems<T>(decode: (ReadOutcome, u32) -> T, outcomes: seq<ReadOutcome>, lineno: u32): (items: seq<T>)
    ensures |items| <= |outcomes|
    decreases |outcomes|
  {
    if |outcomes| == 0 || outcomes[0] == ReadOk("") then []
    else
      var after: u32 := if outcomes[0].ReadOk? && lineno != U32_MAX then lineno + 1 else lineno;
      [decode(outcomes[0], lineno)] + CountedItems(decode, outcomes[1..], after)
  }

  /** The `i`-th item of the reference list is the `i`-th outcome decoded
      with the start number plus the successful reads before it, held at
      `u32::MAX`. */
  lemma {:induction false} CountedItemAt<T>(decode: (ReadOutcome, u32) -> T, outcomes: seq<ReadOutcome>, lineno: u32, i: nat)
    requires i < |CountedItems(decode, outcomes, lineno)|
    ensures CountedItems(decode, outcomes, lineno)[i] == decode(outcomes[i], Min(lineno + LinesBefore(outcomes, i), U32_MAX))
    decreases i
  {
    var after: u32 := if outcomes[0].ReadOk? && lineno != U32_MAX then lineno + 1 else lineno;
    if i > 0 {
      CountedItemAt(decode, outcomes[1..], after, i - 1);
      assert outcomes[1..][i - 1] == outcomes[i];
      LinesBeforeShift(outcomes, lineno, after, i);
    }
  }

  /** The reference list has one item per read before the first 0-byte read. */
  lemma {:induction false} CountedItemsLength<T>(decode: (ReadOutcome, u32) -> T, outcomes: seq<ReadOutcome>, lineno: u32)
    ensures |CountedItems(decode, outcomes, lineno)| == IteratorProperties.EndIndex(outcomes)
    decreases |outcomes|
  {
    if |outcomes| > 0 && outcomes[0] != ReadOk("") {
      var after: u32 := if outcomes[0].ReadOk? && lineno != U32_MAX then lineno + 1 else lineno;
      CountedItemsLength(decode, outcomes[1..], after);
    }
  }

  /** `IteratorProperties.Decoded` as a decoder for `CountedItems`. */
  function DecodeWith(titleCase: string -> string): (ReadOutcome, u32) -> Result<RawQualifier, ParseError> {
    (o: ReadOutcome, n: u32) => IteratorProperties.Decoded(o, n, titleCase)
  }

  /** The counting iterator over a stream yields exactly the reference list. */
  lemma {:induction false} CollectCountedIsCountedItems(outcomes: seq<ReadOutcome>, lineno: u32, titleCase: string -> string)
    ensures CollectCounted(Qualifiers(lineno, Streamed(outcomes)), titleCase) == CountedItems(DecodeWith(titleCase), outcomes, lineno)
    decreases |outcomes|
  {
    if |outcomes| > 0 && outcomes[0] != ReadOk("") {
      var after: u32 := if outcomes[0].ReadOk? && lineno != U32_MAX then lineno + 1 else lineno;
      CollectCountedStreamStep(outcomes, lineno, titleCase);
      CollectCountedIsCountedItems(outcomes[1..], after, titleCase);
    } else {
      var s := NextCounted(Qualifiers(lineno, Streamed(outcomes)), titleCase);
      assert s.item.None?;
    }
  }

  /** One step of the counting iterator over a stream: a successful read
      advances the counter, a failed one does not. */
  lemma CollectCountedStreamStep(outcomes: seq<ReadOutcome>, lineno: u32, titleCase: string -> string)
    requires |outcomes| > 0 && outcomes[0] != ReadOk("")
    ensures CollectCounted(Qualifiers(lineno, Streamed(outcomes)), titleCase)
         == [IteratorProperties.Decoded(outcomes[0], lineno, titleCase)]
            + CollectCounted(Qualifiers(if outcomes[0].ReadOk? && lineno != U32_MAX then lineno + 1 else lineno,
                                        Streamed(outcomes[1..])), titleCase)
  {
    var s := NextCounted(Qualifiers(lineno, Streamed(outcomes)), titleCase);
    assert s.state == Qualifiers(if outcomes[0].ReadOk? && lineno != U32_MAX then lineno + 1 else lineno,
                                 Streamed(outcomes[1..]));
  }

  /** Over a stream the counting iterator yields one item per read up to the
      first 0-byte read, and the `i`-th item is decoded with the number of
      successful reads before it added to the start, held at `u32::MAX`; a
      failed read takes no number. */
  lemma CollectCountedStreamed(outcomes: seq<ReadOutcome>, lineno: u32, titleCase: string -> string)
    ensures |CollectCounted(Qualifiers(lineno, Streamed(outcomes)), titleCase)| == IteratorProperties.EndIndex(outcomes)
    ensures forall i :: 0 <= i < IteratorProperties.EndIndex(outcomes) ==>
              CollectCounted(Qualifiers(lineno, Streamed(outcomes)), titleCase)[i]
              == IteratorProperties.Decoded(outcomes[i], Min(lineno + LinesBefore(outcomes, i), U32_MAX), titleCase)
  {
    var decode := DecodeWith(titleCase);
    CollectCountedIsCountedItems(outcomes, lineno, titleCase);
    CountedItemsLength(decode, outcomes, lineno);
    var items := CountedItems(decode, outcomes, lineno);
    forall i | 0 <= i < IteratorProperties.EndIndex(outcomes)
      ensures items[i] == IteratorProperties.Decoded(outcomes[i], Min(lineno + LinesBefore(outcomes, i), U32_MAX), titleCase)
    {
      var n: u32 := Min(lineno + LinesBefore(outcomes, i), U32_MAX);
      CountedItemAt(decode, outcomes, lineno, i);
      assert decode(outcomes[i], n) == IteratorProperties.Decoded(outcomes[i], n, titleCase);
    }
  }

  /** The number the `i`-th outcome gets is the same counted from the start
      or from the counter the first outcome left. */
  lemma LinesBeforeShift(outcomes: seq<ReadOutcome>, lineno: u32, after: u32, i: nat)
    requires 0 < i <= |outcomes|
    requires after == if outcomes[0].ReadOk? && lineno != U32_MAX then lineno + 1 else lineno
    ensures Min(after + LinesBefore(outcomes[1..], i - 1), U32_MAX) == Min(lineno + LinesBefore(outcomes, i), U32_MAX)
  {
    assert LinesBefore(outcomes, i) == (if outcomes[0].ReadOk? then 1 else 0) + LinesBefore(outcomes[1..], i - 1);
  }

  /** With the counter advancing, a decoding error from a stream names the
      number of successful reads up to and including its own; read
      failures stay `IO` errors without a line. */
  lemma CountedStreamErrorsNameTheirLine(outcomes: seq<ReadOutcome>, titleCase: string -> string)
    ensures |CollectCounted(FromReader(outcomes), titleCase)| == IteratorProperties.EndIndex(outcomes) <= |outcomes|
    ensures forall i :: 0 <= i < IteratorProperties.EndIndex(outcomes) && CollectCounted(FromReader(outcomes), titleCase)[i].Failure? ==>
              || (outcomes[i] == ReadFailed && CollectCounted(FromReader(outcomes), titleCase)[i].error == ParseError(IO, None))
              || (outcomes[i].ReadOk? && CollectCounted(FromReader(outcomes), titleCase)[i].error.line == Some(Min(1 + LinesBefore(outcomes, i), U32_MAX)))
  {
    CollectCountedStreamed(outcomes, 1, titleCase);
    var c := CollectCounted(FromReader(outcomes), titleCase);
    forall i | 0 <= i < IteratorProperties.EndIndex(outcomes) && c[i].Failure?
      ensures || (outcomes[i] == ReadFailed && c[i].error == ParseError(IO, None))
              || (outcomes[i].ReadOk? && c[i].error.line == Some(Min(1 + LinesBefore(outcomes, i), U32_MAX)))
    {
      DecodedErrorLine(outcomes[i], Min(1 + LinesBefore(outcomes, i), U32_MAX), titleCase);
    }
  }

  /** A decoded read outcome fails either as a failed read (`IO`, no line)
      or as a decoding error at the number it was given. */
  lemma DecodedErrorLine(o: ReadOutcome, n: u32, titleCase: string -> string)
    ensures IteratorProperties.Decoded(o, n, titleCase).Failure? ==>
              || (o == ReadFailed && IteratorProperties.Decoded(o, n, titleCase).error == ParseError(IO, None))
              || (o.ReadOk? && IteratorProperties.Decoded(o, n, titleCase).error.line == Some(n))
  {
  }

  /** Two blank lines: the iterator as written blames line 1 for both. */
  lemma AsWrittenSecondLineNamesLineOne(titleCase: string -> string)
    ensures |Collect(FromStr(["", ""]), titleCase)| == 2
    ensures Collect(FromStr(["", ""]), titleCase)[1] == Failure(ParseError(MissingFirstName, Some(1)))
  {
    IteratorProperties.CollectInMemory(["", ""], 1, titleCase);
    ParserProperties.BlankLineMissesFirstName("", 1, titleCase);
  }

  /** Two blank lines: with a counting iterator the second error names line 2. */
  lemma CountedSecondLineNamesLineTwo(titleCase: string -> string)
    ensures |CollectCounted(FromStr(["", ""]), titleCase)| == 2
    ensures CollectCounted(FromStr(["", ""]), titleCase)[1] == Failure(ParseError(MissingFirstName, Some(2)))
  {
    CollectCountedInMemory(["", ""], 1, titleCase);
    ParserProperties.BlankLineMissesFirstName("", 2, titleCase);
  }
}

=== FILE: line_readers.dfy ===
/** The two `LineReader` implementations (src/utils.rs). The input itself is
    abstract: an in-memory reader is the list of lines `str::lines` would
    produce, a streamed reader is the list of outcomes its successive
    `read_line` calls would produce. */
module LineReaders {
  import opened Wrappers
  import opened Errors

  /** One `BufRead::read_line` call: the text appended to a fresh buffer
      (empty exactly when the call read 0 bytes), or an I/O failure. */
  datatype ReadOutcome = ReadOk(buf: string) | ReadFailed

  datatype LineReader =
    | InMemory(pending: seq<string>)
    | Streamed(outcomes: seq<ReadOutcome>)

  /** What a `next_line` call yields, and the reader left behind. */
  datatype LinePull = LinePull(item: Option<Result<string, ParseError>>, rest: LineReader)

  function Remaining(r: LineReader): nat {
    match r
    case InMemory(pending) => |pending|
    case Streamed(outcomes) => |outcomes|
  }

  predicate EndsWith(s: string, c: char) {
    |s| > 0 && s[|s| - 1] == c
  }

  /** The terminator handling of the streamed reader: a final `'\n'` is
      removed, and then a `'\r'` only if it has become the last character. */
  function StripTerminator(buf: string): (line: string)
    ensures buf == line || buf == line + "\n" || buf == line + "\r\n"
    ensures buf == line <==> !EndsWith(buf, '\n')
    ensures buf == line + "\n" ==> !EndsWith(line, '\r')
  {
    if EndsWith(buf, '\n') then
      var popped := buf[..|buf| - 1];
      if EndsWith(popped, '\r') then popped[..|popped| - 1] else popped
    else buf
  }

  /** `next_line` of both readers. The in-memory reader wraps every line in
      `Ok`; the streamed one ends on a 0-byte read, strips the terminator of
      a non-empty read and turns a failed read into an `IO` error that has no
      line number. An exhausted stream keeps reading 0 bytes. */
  function NextLine(r: LineReader): (p: LinePull)
    ensures p.item.Some? ==> Remaining(p.rest) < Remaining(r)
    ensures r.InMemory? && |r.pending| > 0 ==> p.rest == InMemory(r.pending[1..])
    ensures r.Streamed? && |r.outcomes| > 0 ==> p.rest == Streamed(r.outcomes[1..])
    ensures r.InMemory? ==> p.rest.InMemory?
    ensures r.InMemory? ==> (p.item.Some? <==> |r.pending| > 0)
    ensures r.InMemory? && p.item.Some? ==> p.item.value == Success(r.pending[0])
    ensures r.Streamed? ==> p.rest.Streamed?
    ensures r.Streamed? ==> (p.item.None? <==> |r.outcomes| == 0 || r.outcomes[0] == ReadOk(""))
    ensures r.Streamed? && p.item.Some? && r.outcomes[0].ReadOk? ==>
              p.item.value == Success(StripTerminator(r.outcomes[0].buf))
    ensures r.Streamed? && p.item.Some? && r.outcomes[0].ReadFailed? ==>
              p.item.value == Failure(ParseError(IO, None))
  {
    match r
    case InMemory(pending) =>
      if |pending| == 0 then LinePull(None, r)
      else LinePull(Some(Success(pending[0])), InMemory(pending[1..]))
    case Streamed(outcomes) =>
      if |outcomes| == 0 then LinePull(None, r)
      else match outcomes[0]
        case ReadOk(buf) =>
          if |buf| == 0 then LinePull(None, Streamed(outcomes[1..]))
          else LinePull(Some(Success(StripTerminator(buf))), Streamed(outcomes[1..]))
        case ReadFailed =>
          LinePull(Some(Failure(ParseError(IO, None))), Streamed(outcomes[1..]))
  }

  /** The in-memory reader never yields an error. */
  lemma InMemoryNeverFails(pending: seq<string>)
    ensures forall e :: NextLine(InMemory(pending)).item != Some(Failure(e))
  {
  }

  /** Line content followed by `"\r\n"` comes back as the content itself. */
  lemma StripCrLf(x: string)
    ensures StripTerminator(x + "\r\n") == x
  {
    assert (x + "\r\n")[..|x| + 1] == x + "\r";
    assert (x + "\r")[..|x|] == x;
  }

  /** Line content followed by `"\n"` comes back as the content, unless the
      content itself ends in `'\r'`. */
  lemma StripLf(x: string)
    requires !EndsWith(x, '\r')
    ensures StripTerminator(x + "\n") == x
  {
    assert (x + "\n")[..|x|] == x;
  }

  /** An unterminated final line is returned as it is, trailing `'\r'` included. */
  lemma StripUnterminated(x: string)
    requires !EndsWith(x, '\n')
    ensures StripTerminator(x) == x
  {
  }
}

=== FILE: parser.dfy ===
/** The record decoder and the iterator over it (src/parser.rs). */
module Parser {
  import opened Wrappers
  import opened Types
  import opened Errors
  import opened Text
  import opened Digits
  import opened LineReaders

  /** The four validators `parse_line` compiles once. */
  const APPLICATION_ID_PATTERN := DigitPattern(7, 7)
  const SEAT_NUMBER_PATTERN := DigitPattern(3, 3)
  const ROOM_ASSIGNMENT_PATTERN := DigitPattern(1, 2)
  const TEST_CENTER_CODE_PATTERN := DigitPattern(4, 4)

  /** Each validator accepts exactly the texts its regex (`^[0-9]{7,7}$`,
      `^[0-9]{3,3}$`, `^[0-9]{1,2}$`, `^[0-9]{4,4}$`) accepts, and each
      demands at least one digit and allows few enough that the value fits
      the integer type the column is parsed into (`u64` for the id, `u32`
      for the rest). */
  lemma ValidatorsAreTheRegexes(s: string)
    ensures Matches(APPLICATION_ID_PATTERN, s) <==> |s| == 7 && forall i :: 0 <= i < |s| ==> '0' <= s[i] <= '9'
    ensures Matches(SEAT_NUMBER_PATTERN, s) <==> |s| == 3 && forall i :: 0 <= i < |s| ==> '0' <= s[i] <= '9'
    ensures Matches(ROOM_ASSIGNMENT_PATTERN, s) <==> 1 <= |s| <= 2 && forall i :: 0 <= i < |s| ==> '0' <= s[i] <= '9'
    ensures Matches(TEST_CENTER_CODE_PATTERN, s) <==> |s| == 4 && forall i :: 0 <= i < |s| ==> '0' <= s[i] <= '9'
    ensures 1 <= APPLICATION_ID_PATTERN.minLen && Pow10(APPLICATION_ID_PATTERN.maxLen) <= U64_MAX + 1
    ensures 1 <= SEAT_NUMBER_PATTERN.minLen && Pow10(SEAT_NUMBER_PATTERN.maxLen) <= U32_MAX + 1
    ensures 1 <= ROOM_ASSIGNMENT_PATTERN.minLen && Pow10(ROOM_ASSIGNMENT_PATTERN.maxLen) <= U32_MAX + 1
    ensures 1 <= TEST_CENTER_CODE_PATTERN.minLen && Pow10(TEST_CENTER_CODE_PATTERN.maxLen) <= U32_MAX + 1
  {
  }

  /** `Qualifiers`: the line counter and the reader. Both public
      constructors start the counter at 1, and no operation changes it. */
  datatype Qualifiers = Qualifiers(lineno: u32, reader: LineReader)

  /** `from_reader`: the first line number handed out is 1. */
  function FromReader(outcomes: seq<ReadOutcome>): (q: Qualifiers)
    ensures NextLineno(q.lineno) == Success(1)
    ensures q.reader == Streamed(outcomes)
  {
    Qualifiers(1, Streamed(outcomes))
  }

  /** `from_str`: the first line number handed out is 1. */
  function FromStr(lines: seq<string>): (q: Qualifiers)
    ensures NextLineno(q.lineno) == Success(1)
    ensures q.reader == InMemory(lines)
  {
    Qualifiers(1, InMemory(lines))
  }

  /** `next_lineno`: the current line number, unless the counter is saturated. */
  function NextLineno(lineno: u32): (r: Result<u32, ParseError>)
    ensures r.Success? <==> lineno != U32_MAX
    ensures r.Success? ==> r.value == lineno
    ensures r.Failure? ==> r.error == ParseError(TooBig, Some(lineno))
  {
    if lineno == U32_MAX then Failure(ParseError(TooBig, Some(lineno))) else Success(lineno)
  }

  /** `next_or_err!`: the `i`-th tab-separated piece, or the given kind of
      error when the line has no such piece. */
  function NextOrErr(parts: seq<string>, i: nat, kind: ParseErrorType, lineno: u32): (r: Result<string, ParseError>)
    ensures r.Success? <==> i < |parts|
    ensures r.Success? ==> r.value == parts[i]
    ensures r.Failure? ==> r.error == ParseError(kind, Some(lineno))
  {
    if i < |parts| then Success(parts[i]) else Failure(ParseError(kind, Some(lineno)))
  }

  /** A validated digit field converted with `parse::<uN>()`, where `max` is
      the largest `uN`. The conversion's failure branch (a `panic!` in the
      source) is unreachable: every text the pattern accepts parses. */
  function ConvertValidated(text: string, pattern: DigitPattern, invalid: ParseErrorType, lineno: u32, max: nat)
    : (r: Result<nat, ParseError>)
    requires 1 <= pattern.minLen && Pow10(pattern.maxLen) <= max + 1
    ensures r.Success? <==> Matches(pattern, text)
    ensures r.Success? ==> AllDigits(text) && r.value == DigitsValue(text)
    ensures r.Success? ==> r.value < Pow10(pattern.maxLen) && r.value <= max
    ensures r.Failure? ==> r.error == ParseError(invalid, Some(lineno))
  {
    if Matches(pattern, text) then
      ValidatedTextParses(pattern, text, max);
      Success(ParseUnsigned(text, max).value)
    else
      Failure(ParseError(invalid, Some(lineno)))
  }

  /** A digit column: `next_or_err!` with the column's `Missing*` kind, then
      the column's validator, then the conversion. */
  function NumericField(parts: seq<string>, i: nat, missing: ParseErrorType, pattern: DigitPattern,
                        invalid: ParseErrorType, lineno: u32, max: nat): (r: Result<nat, ParseError>)
    requires 1 <= pattern.minLen && Pow10(pattern.maxLen) <= max + 1
    ensures r.Success? <==> i < |parts| && Matches(pattern, parts[i])
    ensures r.Success? ==> AllDigits(parts[i]) && r.value == DigitsValue(parts[i])
    ensures r.Success? ==> r.value < Pow10(pattern.maxLen) && r.value <= max
    ensures r.Failure? ==> r.error == ParseError(if i < |parts| then invalid else missing, Some(lineno))
  {
    var text :- NextOrErr(parts, i, missing, lineno);
    ConvertValidated(text, pattern, invalid, lineno, max)
  }

  /** Where the application id was found: its value, the middle name read
      before it, and the index of the piece after it. */
  datatype IdSlot = IdSlot(id: u64, middleName: Option<string>, next: nat)

  /** The middle-name / application-id disambiguation. The third piece is
      the id when it is seven digits; otherwise it is the middle name (left
      out when empty) and the fourth piece must be the id. Nothing after the
      fourth piece is looked at. */
  function ApplicationId(parts: seq<string>, lineno: u32, titleCase: string -> string): (r: Result<IdSlot, ParseError>)
    ensures |parts| <= 2 ==> r == Failure(ParseError(MissingApplicationId, Some(lineno)))
    ensures |parts| > 2 && Matches(APPLICATION_ID_PATTERN, parts[2]) ==>
              r == Success(IdSlot(DigitsValue(parts[2]), None, 3))
    ensures |parts| == 3 && !Matches(APPLICATION_ID_PATTERN, parts[2]) ==>
              r == Failure(ParseError(MissingApplicationId, Some(lineno)))
    ensures |parts| > 3 && !Matches(APPLICATION_ID_PATTERN, parts[2]) && !Matches(APPLICATION_ID_PATTERN, parts[3]) ==>
              r == Failure(ParseError(InvalidApplicationId, Some(lineno)))
    ensures |parts| > 3 && !Matches(APPLICATION_ID_PATTERN, parts[2]) && Matches(APPLICATION_ID_PATTERN, parts[3]) ==>
              r == Success(IdSlot(DigitsValue(parts[3]), if parts[2] == "" then None else Some(titleCase(parts[2])), 4))
    ensures r.Success? ==> r.value.id < Pow10(7)
  {
    var first :- NextOrErr(parts, 2, MissingApplicationId, lineno);
    if Matches(APPLICATION_ID_PATTERN, first) then
      // the pattern has just matched, so this conversion always succeeds
      var id := ConvertValidated(first, APPLICATION_ID_PATTERN, InvalidApplicationId, lineno, U64_MAX).value;
      Success(IdSlot(id, None, 3))
    else
      var middleName := if first != "" then Some(titleCase(first)) else None;
      var second :- NextOrErr(parts, 3, MissingApplicationId, lineno);
      var id :- ConvertValidated(second, APPLICATION_ID_PATTERN, InvalidApplicationId, lineno, U64_MAX);
      Success(IdSlot(id, middleName, 4))
  }

  /** The columns after the application id. */
  datatype Logistics = Logistics(
    seatNumber: u32,
    time: string,
    roomAssignment: u32,
    testCenterCode: u32,
    testCenterName: string,
    testCenterAddr: string
  )

  /** The test-centre columns: room assignment, code, name and address. */
  datatype Center = Center(roomAssignment: u32, testCenterCode: u32, testCenterName: string, testCenterAddr: string)

  /** The pulls that follow the application id, from piece `k` on: seat
      number and time, then the test-centre columns. A digit column is
      validated and converted; a text column is taken as it is, even when
      empty. The first column that is absent or malformed decides the
      error. */
  function ParseLogistics(parts: seq<string>, k: nat, lineno: u32): (r: Result<Logistics, ParseError>)
    ensures k >= |parts| ==> r == Failure(ParseError(MissingSeatNumber, Some(lineno)))
    ensures k < |parts| && !Matches(SEAT_NUMBER_PATTERN, parts[k]) ==>
              r == Failure(ParseError(InvalidSeatNumber, Some(lineno)))
    ensures k < |parts| && Matches(SEAT_NUMBER_PATTERN, parts[k]) && k + 1 >= |parts| ==>
              r == Failure(ParseError(MissingTime, Some(lineno)))
    ensures k + 1 < |parts| && Matches(SEAT_NUMBER_PATTERN, parts[k]) && ParseCenter(parts, k + 2, lineno).Failure? ==>
              r == Failure(ParseCenter(parts, k + 2, lineno).error)
    ensures r.Success? <==>
              && k + 1 < |parts| && Matches(SEAT_NUMBER_PATTERN, parts[k])
              && ParseCenter(parts, k + 2, lineno).Success?
    ensures r.Success? ==>
              && r.value.seatNumber == DigitsValue(parts[k]) < 1000
              && r.value.time == parts[k + 1]
              && var c := ParseCenter(parts, k + 2, lineno).value;
                 && r.value.roomAssignment == c.roomAssignment
                 && r.value.testCenterCode == c.testCenterCode
                 && r.value.testCenterName == c.testCenterName
                 && r.value.testCenterAddr == c.testCenterAddr
  {
    var seatNumber :- NumericField(parts, k, MissingSeatNumber, SEAT_NUMBER_PATTERN, InvalidSeatNumber, lineno, U32_MAX);
    var time :- NextOrErr(parts, k + 1, MissingTime, lineno);
    var center :- ParseCenter(parts, k + 2, lineno);
    Success(Logistics(seatNumber, time, center.roomAssignment, center.testCenterCode,
                      center.testCenterName, center.testCenterAddr))
  }

  /** The test-centre pulls from piece `j` on, in the source's order: room
      assignment, code, name, address. */
  function ParseCenter(parts: seq<string>, j: nat, lineno: u32): (r: Result<Center, ParseError>)
    ensures j >= |parts| ==> r == Failure(ParseError(MissingRoomAssignment, Some(lineno)))
    ensures j < |parts| && !Matches(ROOM_ASSIGNMENT_PATTERN, parts[j]) ==>
              r == Failure(ParseError(InvalidRoomAssignment, Some(lineno)))
    ensures j < |parts| && Matches(ROOM_ASSIGNMENT_PATTERN, parts[j]) && j + 1 >= |parts| ==>
              r == Failure(ParseError(MissingTestCenterCode, Some(lineno)))
    ensures j + 1 < |parts| && Matches(ROOM_ASSIGNMENT_PATTERN, parts[j]) && !Matches(TEST_CENTER_CODE_PATTERN, parts[j + 1]) ==>
              r == Failure(ParseError(InvalidTestCenterCode, Some(lineno)))
    ensures j + 1 < |parts| && Matches(ROOM_ASSIGNMENT_PATTERN, parts[j]) && Matches(TEST_CENTER_CODE_PATTERN, parts[j + 1]) ==>
              && (j + 2 >= |parts| ==> r == Failure(ParseError(MissingTestCenterName, Some(lineno))))
              && (j + 2 < |parts| && j + 3 >= |parts| ==> r == Failure(ParseError(MissingTestCenterAddr, Some(lineno))))
    ensures r.Success? <==>
              && j + 3 < |parts|
              && Matches(ROOM_ASSIGNMENT_PATTERN, parts[j])
              && Matches(TEST_CENTER_CODE_PATTERN, parts[j + 1])
    ensures r.Success? ==>
              && r.value.roomAssignment == DigitsValue(parts[j]) < 100
              && r.value.testCenterCode == DigitsValue(parts[j + 1]) < 10_000
              && r.value.testCenterName == parts[j + 2]
              && r.value.testCenterAddr == parts[j + 3]
  {
    var roomAssignment :- NumericField(parts, j, MissingRoomAssignment, ROOM_ASSIGNMENT_PATTERN,
                                       InvalidRoomAssignment, lineno, U32_MAX);
    var testCenterCode :- NumericField(parts, j + 1, MissingTestCenterCode, TEST_CENTER_CODE_PATTERN,
                                       InvalidTestCenterCode, lineno, U32_MAX);
    var testCenterName :- NextOrErr(parts, j + 2, MissingTestCenterName, lineno);
    var testCenterAddr :- NextOrErr(parts, j + 3, MissingTestCenterAddr, lineno);
    Success(Center(roomAssignment, testCenterCode, testCenterName, testCenterAddr))
  }

  /** The body of `parse_line` after the split: surname, first name, the
      application id (with the middle name before it, if any), then the
      logistics columns. The first failure decides the error, and a record
      is returned only when every column was read. */
  function ParseFields(parts: seq<string>, lineno: u32, titleCase: string -> string): (r: Result<RawQualifier, ParseError>)
    ensures |parts| == 0 ==> r == Failure(ParseError(MissingSurname, Some(lineno)))
    ensures r.Failure? ==> r.error.line == Some(lineno)
    ensures r.Failure? ==> r.error.kind !in {IO, TooBig}
    ensures |parts| >= 1 && r.Failure? ==> r.error.kind != MissingSurname
    ensures r.Success? ==> r.value.id < 10_000_000 && r.value.seatNumber < 1000
    ensures r.Success? ==> r.value.roomAssignment < 100 && r.value.testCenterCode < 10_000
  {
    var surname :- NextOrErr(parts, 0, MissingSurname, lineno);
    var firstName :- NextOrErr(parts, 1, MissingFirstName, lineno);
    var slot :- ApplicationId(parts, lineno, titleCase);
    var rest :- ParseLogistics(parts, slot.next, lineno);
    Success(RawQualifier(
      id := slot.id,
      surname := titleCase(surname),
      firstName := titleCase(firstName),
      middleName := slot.middleName,
      seatNumber := rest.seatNumber,
      time := rest.time,
      roomAssignment := rest.roomAssignment,
      testCenterCode := rest.testCenterCode,
      testCenterName := rest.testCenterName,
      testCenterAddr := rest.testCenterAddr))
  }

  /** `parse_line`: the line-counter guard, then the fields of the trimmed,
      tab-split line. Every error it raises carries the line number it was
      given, and `TooBig` is raised exactly for a saturated counter. */
  function ParseLine(line: string, lineno: u32, titleCase: string -> string): (r: Result<RawQualifier, ParseError>)
    ensures r.Failure? ==> r.error.line == Some(lineno)
    ensures r.Failure? ==> r.error.kind != IO && r.error.kind != MissingSurname
    ensures (r.Failure? && r.error.kind == TooBig) <==> lineno == U32_MAX
    ensures r.Success? ==> r.value.id < 10_000_000 && r.value.seatNumber < 1000
    ensures r.Success? ==> r.value.roomAssignment < 100 && r.value.testCenterCode < 10_000
  {
    var lineno :- NextLineno(lineno);
    ParseFields(Split(Trim(line), '\t'), lineno, titleCase)
  }

  /** What one `next` call yields, and the iterator left behind. */
  datatype Step = Step(item: Option<Result<RawQualifier, ParseError>>, state: Qualifiers)

  /** `Iterator::next`: ends when the reader ends, passes a reader error
      through untouched, and decodes a line with the unchanged counter. */
  function Next(q: Qualifiers, titleCase: string -> string): (s: Step)
    ensures s.state == Qualifiers(q.lineno, NextLine(q.reader).rest)
    ensures s.item.None? <==> NextLine(q.reader).item.None?
    ensures NextLine(q.reader).item.Some? && NextLine(q.reader).item.value.Failure? ==>
              s.item == Some(Failure(NextLine(q.reader).item.value.error))
    ensures NextLine(q.reader).item.Some? && NextLine(q.reader).item.value.Success? ==>
              s.item == Some(ParseLine(NextLine(q.reader).item.value.value, q.lineno, titleCase))
  {
    var pulled := NextLine(q.reader);
    var item := match pulled.item
      case None => None
      case Some(Success(line)) => Some(ParseLine(line, q.lineno, titleCase))
      case Some(Failure(err)) => Some(Failure(err));
    Step(item, Qualifiers(q.lineno, pulled.rest))
  }

  /** `collect` on the iterator: every item until the first `None`. At most
      one item per input entry, exactly one per line in memory, and each
      error is either a read failure or names the iterator's counter. */
  function Collect(q: Qualifiers, titleCase: string -> string): (c: seq<Result<RawQualifier, ParseError>>)
    ensures |c| <= Remaining(q.reader)
    ensures q.reader.InMemory? ==> |c| == |q.reader.pending|
    ensures forall i :: 0 <= i < |c| && c[i].Failure? ==>
              || c[i].error == ParseError(IO, None)
              || (c[i].error.line == Some(q.lineno) && c[i].error.kind !in {IO, MissingSurname})
    decreases Remaining(q.reader)
  {
    var s := Next(q, titleCase);
    match s.item
    case None => []
    case Some(item) => [item] + Collect(s.state, titleCase)
  }
}

=== FILE: parser_properties.dfy ===
/** Properties of the decoder and the iterator that relate several calls or
    hold across whole inputs. */
module ParserProperties {
  import opened Wrappers
  import opened Types
  import opened Errors
  import opened Text
  import opened Digits
  import opened LineReaders
  import opened Parser

  // ---------------------------------------------------------------------
  // Line content

  /** A line that is empty or all whitespace has one empty piece, so the
      first pull that can fail, the first name, is the one that does. */
  lemma BlankLineMissesFirstName(line: string, lineno: u32, titleCase: string -> string)
    requires forall k :: 0 <= k < |line| ==> IsWhitespace(line[k])
    requires lineno != U32_MAX
    ensures ParseLine(line, lineno, titleCase) == Failure(ParseError(MissingFirstName, Some(lineno)))
  {
    TrimBlank(line);
    assert Split("", '\t') == [""];
    OnePieceMissesFirstName("", lineno, titleCase);
  }

  lemma OnePieceMissesFirstName(piece: string, lineno: u32, titleCase: string -> string)
    ensures ParseFields([piece], lineno, titleCase) == Failure(ParseError(MissingFirstName, Some(lineno)))
  {
    assert NextOrErr([piece], 0, MissingSurname, lineno) == Success(piece);
  }

  /** The decoder sees a line only through its trimmed text. */
  lemma ParseLineSeesTrimmedText(a: string, b: string, lineno: u32, titleCase: string -> string)
    requires Trim(a) == Trim(b)
    ensures ParseLine(a, lineno, titleCase) == ParseLine(b, lineno, titleCase)
  {
  }

  /** What the streamed reader strips is whitespace to `str::trim`. */
  lemma TrimIgnoresTerminator(buf: string)
    ensures Trim(StripTerminator(buf)) == Trim(buf)
  {
    var line := StripTerminator(buf);
    if buf == line + "\n" {
      TrimAppendWhitespace(line, '\n');
    } else if buf == line + "\r\n" {
      var cr := line + ['\r'];
      assert buf == cr + ['\n'];
      TrimAppendWhitespace(cr, '\n');
      TrimAppendWhitespace(line, '\r');
    }
  }

  /** Whatever terminator the streamed reader strips, the decoder would have
      trimmed anyway: a buffer decodes the same with or without it. So
      `"\r\n"`, `"\n"` and an unterminated last line give the same record. */
  lemma TerminatorIrrelevant(buf: string, lineno: u32, titleCase: string -> string)
    ensures ParseLine(StripTerminator(buf), lineno, titleCase) == ParseLine(buf, lineno, titleCase)
  {
    TrimIgnoresTerminator(buf);
    ParseLineSeesTrimmedText(StripTerminator(buf), buf, lineno, titleCase);
  }

  /** The same content ending in `"\r\n"` or in `"\n"` decodes identically. */
  lemma CrLfAndLfAgree(x: string, lineno: u32, titleCase: string -> string)
    ensures ParseLine(StripTerminator(x + "\r\n"), lineno, titleCase)
         == ParseLine(StripTerminator(x + "\n"), lineno, titleCase)
  {
    StripCrLf(x);
    TrimIgnoresTerminator(x + "\n");
    TrimAppendWhitespace(x, '\n');
    ParseLineSeesTrimmedText(x, StripTerminator(x + "\n"), lineno, titleCase);
  }

  // ---------------------------------------------------------------------
  // Lines built from their columns

  /** The columns of one input line as text, the middle name optional. */
  datatype Row = Row(
    surname: string,
    firstName: string,
    middleName: Option<string>,
    applicationId: string,
    seatNumber: string,
    time: string,
    roomAssignment: string,
    testCenterCode: string,
    testCenterName: string,
    testCenterAddr: string
  )

  function RowPieces(row: Row): seq<string> {
    [row.surname, row.firstName]
    + (if row.middleName.Some? then [row.middleName.value] else [])
    + [row.applicationId, row.seatNumber, row.time, row.roomAssignment,
       row.testCenterCode, row.testCenterName, row.testCenterAddr]
  }

  /** A row the line format can carry: no column holds a tab, the digit
      columns have their widths, and a middle name is not itself seven
      digits (it would be taken for the application id). */
  predicate WellFormedRow(row: Row) {
    && '\t' !in row.surname && '\t' !in row.firstName
    && (row.middleName.Some? ==> '\t' !in row.middleName.value
                                 && !Matches(APPLICATION_ID_PATTERN, row.middleName.value))
    && '\t' !in row.applicationId && '\t' !in row.seatNumber && '\t' !in row.time
    && '\t' !in row.roomAssignment && '\t' !in row.testCenterCode
    && '\t' !in row.testCenterName && '\t' !in row.testCenterAddr
    && Matches(APPLICATION_ID_PATTERN, row.applicationId)
    && Matches(SEAT_NUMBER_PATTERN, row.seatNumber)
    && Matches(ROOM_ASSIGNMENT_PATTERN, row.roomAssignment)
    && Matches(TEST_CENTER_CODE_PATTERN, row.testCenterCode)
  }

  /** The record a well-formed row stands for. */
  function RowRecord(row: Row, titleCase: string -> string): RawQualifier
    requires WellFormedRow(row)
  {
    RawQualifier(
      id := DigitsValue(row.applicationId),
      surname := titleCase(row.surname),
      firstName := titleCase(row.firstName),
      middleName := if row.middleName.Some? && row.middleName.value != ""
                    then Some(titleCase(row.middleName.value)) else None,
      seatNumber := DigitsValue(row.seatNumber),
      time := row.time,
      roomAssignment := DigitsValue(row.roomAssignment),
      testCenterCode := DigitsValue(row.testCenterCode),
      testCenterName := row.testCenterName,
      testCenterAddr := row.testCenterAddr)
  }

  /** Writing a row out as a tab-separated line and decoding it gives the
      row's record: names title-cased, digit columns read as decimal, text
      columns verbatim (interior whitespace and empty text included), and
      any pieces after the address ignored. The line as a whole must not
      start or end with whitespace, which `parse_line` would trim away. */
  lemma RowRoundTrip(row: Row, extra: seq<string>, lineno: u32, titleCase: string -> string)
    requires WellFormedRow(row)
    requires forall i :: 0 <= i < |extra| ==> '\t' !in extra[i]
    requires IsTrimmed(Join(RowPieces(row) + extra, '\t'))
    requires lineno != U32_MAX
    ensures ParseLine(Join(RowPieces(row) + extra, '\t'), lineno, titleCase) == Success(RowRecord(row, titleCase))
  {
    var parts := RowPieces(row) + extra;
    RowPiecesTabFree(row, extra);
    SplitTrimmedJoin(parts);
    RowPiecesDecode(row, extra, lineno, titleCase);
  }

  lemma RowPiecesTabFree(row: Row, extra: seq<string>)
    requires WellFormedRow(row)
    requires forall i :: 0 <= i < |extra| ==> '\t' !in extra[i]
    ensures forall i :: 0 <= i < |RowPieces(row) + extra| ==> '\t' !in (RowPieces(row) + extra)[i]
  {
    var pieces := RowPieces(row);
    forall i | 0 <= i < |pieces + extra|
      ensures '\t' !in (pieces + extra)[i]
    {
      if i >= |pieces| {
        assert (pieces + extra)[i] == extra[i - |pieces|];
      }
    }
  }

  /** The fixed-width digit columns lose nothing in decoding: the decoded
      id, seat number and test-centre code, zero-padded back to their
      column widths, are the column texts. */
  lemma FixedWidthColumnsRecoverable(row: Row, titleCase: string -> string)
    requires WellFormedRow(row)
    ensures PadDecimal(RowRecord(row, titleCase).id, 7) == row.applicationId
    ensures PadDecimal(RowRecord(row, titleCase).seatNumber, 3) == row.seatNumber
    ensures PadDecimal(RowRecord(row, titleCase).testCenterCode, 4) == row.testCenterCode
  {
    PadDecimalOfDigitsValue(row.applicationId);
    PadDecimalOfDigitsValue(row.seatNumber);
    PadDecimalOfDigitsValue(row.testCenterCode);
  }

  /** A trimmed line joined from tab-free pieces splits back into them. */
  lemma SplitTrimmedJoin(parts: seq<string>)
    requires |parts| >= 1
    requires forall i :: 0 <= i < |parts| ==> '\t' !in parts[i]
    requires IsTrimmed(Join(parts, '\t'))
    ensures Split(Trim(Join(parts, '\t')), '\t') == parts
  {
    TrimOfTrimmed(Join(parts, '\t'));
    SplitJoin(parts, '\t');
  }

  /** The pieces of a well-formed row, followed by anything, decode to the
      row's record. */
  lemma RowPiecesDecode(row: Row, extra: seq<string>, lineno: u32, titleCase: string -> string)
    requires WellFormedRow(row)
    ensures ParseFields(RowPieces(row) + extra, lineno, titleCase) == Success(RowRecord(row, titleCase))
  {
    var parts := RowPieces(row) + extra;
    var k := |RowPieces(row)| - 6;
    if row.middleName.Some? {
      assert parts[..10] == [row.surname, row.firstName, row.middleName.value, row.applicationId, row.seatNumber,
                             row.time, row.roomAssignment, row.testCenterCode, row.testCenterName, row.testCenterAddr];
      assert parts[2] == row.middleName.value && parts[3] == row.applicationId;
    } else {
      assert parts[..9] == [row.surname, row.firstName, row.applicationId, row.seatNumber,
                            row.time, row.roomAssignment, row.testCenterCode, row.testCenterName, row.testCenterAddr];
      assert parts[2] == row.applicationId;
    }
    assert ApplicationId(parts, lineno, titleCase).Success?;
    assert ApplicationId(parts, lineno, titleCase).value.next == k;
    assert parts[k] == row.seatNumber && parts[k + 1] == row.time && parts[k + 2] == row.roomAssignment;
    assert parts[k + 3] == row.testCenterCode && parts[k + 4] == row.testCenterName && parts[k + 5] == row.testCenterAddr;
  }

  /** An empty address is only read when something follows it: as the last
      column its separating tab is trailing whitespace, which the decoder
      trims, so the address is then missing. */
  lemma EmptyFinalAddressIsMissing(row: Row, lineno: u32, titleCase: string -> string)
    requires WellFormedRow(row) && row.testCenterAddr == ""
    requires |row.surname| > 0 && !IsWhitespace(row.surname[0])
    requires |row.testCenterName| > 0 && !IsWhitespace(row.testCenterName[|row.testCenterName| - 1])
    requires lineno != U32_MAX
    ensures ParseLine(Join(RowPieces(row), '\t'), lineno, titleCase)
         == Failure(ParseError(MissingTestCenterAddr, Some(lineno)))
  {
    EmptyAddressDropped(row);
    FrontPiecesMissAddress(row, lineno, titleCase);
  }

  /** With an empty last column, the trailing tab is trimmed away and the
      line splits into every piece but the last. */
  lemma EmptyAddressDropped(row: Row)
    requires WellFormedRow(row) && row.testCenterAddr == ""
    requires |row.surname| > 0 && !IsWhitespace(row.surname[0])
    requires |row.testCenterName| > 0 && !IsWhitespace(row.testCenterName[|row.testCenterName| - 1])
    ensures Split(Trim(Join(RowPieces(row), '\t')), '\t') == RowPieces(row)[..|RowPieces(row)| - 1]
  {
    var pieces := RowPieces(row);
    var front := pieces[..|pieces| - 1];
    FrontPiecesTabFree(row, front);
    EmptyAddressTrimmed(row);
    SplitTrimmedJoin(front);
  }

  lemma FrontPiecesTabFree(row: Row, front: seq<string>)
    requires WellFormedRow(row)
    requires front == RowPieces(row)[..|RowPieces(row)| - 1]
    ensures forall i :: 0 <= i < |front| ==> '\t' !in front[i]
  {
    RowPiecesTabFree(row, []);
    assert RowPieces(row) + [] == RowPieces(row);
  }

  lemma EmptyAddressTrimmed(row: Row)
    requires row.testCenterAddr == ""
    requires |row.surname| > 0 && !IsWhitespace(row.surname[0])
    requires |row.testCenterName| > 0 && !IsWhitespace(row.testCenterName[|row.testCenterName| - 1])
    ensures var front := RowPieces(row)[..|RowPieces(row)| - 1];
            Trim(Join(RowPieces(row), '\t')) == Join(front, '\t') && IsTrimmed(Join(front, '\t'))
  {
    var pieces := RowPieces(row);
    var front := pieces[..|pieces| - 1];
    assert pieces == front + [""];
    JoinEmptyLast(front);
    JoinEnds(front);
    TrimAppendWhitespace(Join(front, '\t'), '\t');
    TrimOfTrimmed(Join(front, '\t'));
  }

  /** Without its address column a well-formed row stops at the address. */
  lemma FrontPiecesMissAddress(row: Row, lineno: u32, titleCase: string -> string)
    requires WellFormedRow(row)
    ensures ParseFields(RowPieces(row)[..|RowPieces(row)| - 1], lineno, titleCase)
         == Failure(ParseError(MissingTestCenterAddr, Some(lineno)))
  {
    var front := RowPieces(row)[..|RowPieces(row)| - 1];
    var k := |RowPieces(row)| - 6;
    if row.middleName.Some? {
      assert front == [row.surname, row.firstName, row.middleName.value, row.applicationId, row.seatNumber,
                       row.time, row.roomAssignment, row.testCenterCode, row.testCenterName];
    } else {
      assert front == [row.surname, row.firstName, row.applicationId, row.seatNumber,
                       row.time, row.roomAssignment, row.testCenterCode, row.testCenterName];
    }
    assert ApplicationId(front, lineno, titleCase).Success?;
    assert ApplicationId(front, lineno, titleCase).value.next == k;
    assert front[k] == row.seatNumber && front[k + 2] == row.roomAssignment && front[k + 3] == row.testCenterCode;
  }

  lemma {:induction false} JoinEmptyLast(front: seq<string>)
    requires |front| >= 1
    ensures Join(front + [""], '\t') == Join(front, '\t') + "\t"
    decreases |front|
  {
    if |front| == 1 {
      assert front + [""] == [front[0], ""];
    } else {
      assert (front + [""])[1..] == front[1..] + [""];
      JoinEmptyLast(front[1..]);
    }
  }

  lemma {:induction false} JoinEnds(parts: seq<string>)
    requires |parts| >= 1
    ensures |parts[0]| > 0 ==> |Join(parts, '\t')| > 0 && Join(parts, '\t')[0] == parts[0][0]
    ensures var last := parts[|parts| - 1];
            |last| > 0 ==> |Join(parts, '\t')| > 0
                           && Join(parts, '\t')[|Join(parts, '\t')| - 1] == last[|last| - 1]
    decreases |parts|
  {
    if |parts| > 1 {
      JoinEnds(parts[1..]);
    }
  }

  // ---------------------------------------------------------------------
  // Worked lines

  /** The benchmark's sample line; long literals are written as
      concatenations of shorter ones. */
  const BENCH_CENTER_NAME := "University " + "of the " + "Philippines " + "Diliman"
  const BENCH_CENTER_ADDR := "Kalaw Corner, " + "Quirino Street, " + "UP Diliman, " + "Quezon City, " + "Metro Manila"
  const BENCH_SAMPLE := "Smith\tJohn\t0000001\t001\t7:30 AM\t1\t0001\t" + BENCH_CENTER_NAME + "\t" + BENCH_CENTER_ADDR

  /** The sample line of the benchmark decodes without error, and an
      iterator over it yields that record first. */
  lemma BenchSampleDecodes(titleCase: string -> string)
    ensures ParseLine(BENCH_SAMPLE, 1, titleCase)
         == Success(RawQualifier(1, titleCase("Smith"), titleCase("John"), None, 1, "7:30 AM", 1, 1,
                                 BENCH_CENTER_NAME, BENCH_CENTER_ADDR))
    ensures Next(FromStr([BENCH_SAMPLE]), titleCase).item == Some(ParseLine(BENCH_SAMPLE, 1, titleCase))
  {
    assert '\t' !in "University " && '\t' !in "of the " && '\t' !in "Philippines " && '\t' !in "Diliman";
    assert '\t' !in "Kalaw Corner, " && '\t' !in "Quirino Street, " && '\t' !in "UP Diliman, ";
    assert '\t' !in "Quezon City, " && '\t' !in "Metro Manila";
    assert BENCH_CENTER_ADDR[|BENCH_CENTER_ADDR| - 1] == 'a';
    SampleShapeDecodes(BENCH_CENTER_NAME, BENCH_CENTER_ADDR, titleCase);
  }

  /** The benchmark's line shape with any tab-free centre name and address
      that does not end in whitespace. */
  lemma SampleShapeDecodes(name: string, addr: string, titleCase: string -> string)
    requires '\t' !in name && '\t' !in addr
    requires |addr| > 0 && !IsWhitespace(addr[|addr| - 1])
    ensures ParseLine("Smith\tJohn\t0000001\t001\t7:30 AM\t1\t0001\t" + name + "\t" + addr, 1, titleCase)
         == Success(RawQualifier(1, titleCase("Smith"), titleCase("John"), None, 1, "7:30 AM", 1, 1, name, addr))
  {
    var row := Row("Smith", "John", None, "0000001", "001", "7:30 AM", "1", "0001", name, addr);
    var line := "Smith\tJohn\t0000001\t001\t7:30 AM\t1\t0001\t" + name + "\t" + addr;
    SampleRow(row, line);
    RowRoundTrip(row, [], 1, titleCase);
    SampleRecord(row, titleCase);
  }

  lemma SampleRecord(row: Row, titleCase: string -> string)
    requires WellFormedRow(row)
    requires row == Row("Smith", "John", None, "0000001", "001", "7:30 AM", "1", "0001",
                        row.testCenterName, row.testCenterAddr)
    ensures RowRecord(row, titleCase)
         == RawQualifier(1, titleCase("Smith"), titleCase("John"), None, 1, "7:30 AM", 1, 1,
                         row.testCenterName, row.testCenterAddr)
  {
    SampleDigits();
  }

  lemma SampleRow(row: Row, line: string)
    requires '\t' !in row.testCenterName && '\t' !in row.testCenterAddr
    requires |row.testCenterAddr| > 0 && !IsWhitespace(row.testCenterAddr[|row.testCenterAddr| - 1])
    requires row == Row("Smith", "John", None, "0000001", "001", "7:30 AM", "1", "0001",
                        row.testCenterName, row.testCenterAddr)
    requires line == "Smith\tJohn\t0000001\t001\t7:30 AM\t1\t0001\t" + row.testCenterName + "\t" + row.testCenterAddr
    ensures WellFormedRow(row)
    ensures Join(RowPieces(row) + [], '\t') == line && IsTrimmed(line)
  {
    var name := row.testCenterName;
    var addr := row.testCenterAddr;
    var pieces := ["Smith", "John", "0000001", "001", "7:30 AM", "1", "0001", name, addr];
    assert RowPieces(row) + [] == pieces;
    SampleShapeJoin(name, addr);
  }

  lemma SampleShapeJoin(name: string, addr: string)
    ensures Join(["Smith", "John", "0000001", "001", "7:30 AM", "1", "0001", name, addr], '\t')
         == "Smith\tJohn\t0000001\t001\t7:30 AM\t1\t0001\t" + name + "\t" + addr
  {
    JoinNine("Smith", "John", "0000001", "001", "7:30 AM", "1", "0001", name, addr);
    SampleShapeFlat(name + "\t" + addr);
  }

  lemma JoinNine(a: string, b: string, c: string, d: string, e: string, f: string, g: string, h: string, k: string)
    ensures Join([a, b, c, d, e, f, g, h, k], '\t')
         == a + "\t" + (b + "\t" + (c + "\t" + (d + "\t" + (e + "\t" + (f + "\t" + (g + "\t" + (h + "\t" + k)))))))
  {
    JoinCons(a, [b, c, d, e, f, g, h, k]);
    JoinCons(b, [c, d, e, f, g, h, k]);
    JoinCons(c, [d, e, f, g, h, k]);
    JoinCons(d, [e, f, g, h, k]);
    JoinCons(e, [f, g, h, k]);
    JoinCons(f, [g, h, k]);
    JoinCons(g, [h, k]);
    JoinCons(h, [k]);
  }

  lemma JoinCons(p: string, rest: seq<string>)
    requires |rest| >= 1
    ensures Join([p] + rest, '\t') == p + "\t" + Join(rest, '\t')
  {
    assert ([p] + rest)[1..] == rest;
  }

  lemma SampleShapeFlat(tail: string)
    ensures "Smith" + "\t" + ("John" + "\t" + ("0000001" + "\t" + ("001" + "\t" + ("7:30 AM" + "\t"
            + ("1" + "\t" + ("0001" + "\t" + tail))))))
         == "Smith\tJohn\t0000001\t001\t7:30 AM\t1\t0001\t" + tail
  {
  }

  lemma SampleDigits()
    ensures DigitsValue("0000001") == 1 && DigitsValue("001") == 1 && DigitsValue("0001") == 1
  {
    OneAfterZeros(6);
    OneAfterZeros(2);
    OneAfterZeros(3);
    assert "0000001" == seq(6, _ => '0') + "1";
    assert "001" == seq(2, _ => '0') + "1";
    assert "0001" == seq(3, _ => '0') + "1";
  }

  /** A one after leading zeros is worth one. */
  lemma {:induction false} OneAfterZeros(n: nat)
    ensures AllDigits(seq(n, _ => '0') + "1") && DigitsValue(seq(n, _ => '0') + "1") == 1
  {
    var s := seq(n, _ => '0') + "1";
    ZerosWorthNothing(n);
    assert s[..|s| - 1] == seq(n, _ => '0');
  }

  lemma {:induction false} ZerosWorthNothing(n: nat)
    ensures AllDigits(seq(n, _ => '0')) && DigitsValue(seq(n, _ => '0')) == 0
  {
    if n > 0 {
      ZerosWorthNothing(n - 1);
      assert seq(n, _ => '0')[..n - 1] == seq(n - 1, _ => '0');
    }
  }
}

=== FILE: schema.dfy ===
/** An independent, table-driven statement of what `parse_line` accepts:
    the nine columns of the line format, where each sits once the optional
    middle-name column is accounted for, and which error each one raises
    when it is absent or malformed. */
module Schema {
  import opened Wrappers
  import opened Types
  import opened Errors
  import opened Text
  import opened Digits
  import opened Parser

  datatype Column =
    | Surname | FirstName | AppId | Seat | Time | Room | CenterCode | CenterName | CenterAddr

  /** The columns in the order the decoder reads them. */
  const Columns: seq<Column> := [Surname, FirstName, AppId, Seat, Time, Room, CenterCode, CenterName, CenterAddr]

  function MissingKind(c: Column): ParseErrorType {
    match c
    case Surname => MissingSurname
    case FirstName => MissingFirstName
    case AppId => MissingApplicationId
    case Seat => MissingSeatNumber
    case Time => MissingTime
    case Room => MissingRoomAssignment
    case CenterCode => MissingTestCenterCode
    case CenterName => MissingTestCenterName
    case CenterAddr => MissingTestCenterAddr
  }

  /** The digit pattern a column must match and the error it raises if it
      does not; free-text columns have none. */
  function Validator(c: Column): Option<(DigitPattern, ParseErrorType)> {
    match c
    case AppId => Some((APPLICATION_ID_PATTERN, InvalidApplicationId))
    case Seat => Some((SEAT_NUMBER_PATTERN, InvalidSeatNumber))
    case Room => Some((ROOM_ASSIGNMENT_PATTERN, InvalidRoomAssignment))
    case CenterCode => Some((TEST_CENTER_CODE_PATTERN, InvalidTestCenterCode))
    case _ => None
  }

  /** A middle-name column is present when there is a third piece and it is
      not an application id. */
  predicate HasMiddleColumn(parts: seq<string>) {
    |parts| > 2 && !Matches(APPLICATION_ID_PATTERN, parts[2])
  }

  /** The piece index of the `i`-th column. */
  function Position(i: nat, parts: seq<string>): nat {
    if i < 2 || !HasMiddleColumn(parts) then i else i + 1
  }

  /** The error the `i`-th column raises on its own, if any. */
  function ColumnError(i: nat, parts: seq<string>): Option<ParseErrorType>
    requires i < |Columns|
  {
    var pos := Position(i, parts);
    if pos >= |parts| then Some(MissingKind(Columns[i]))
    else match Validator(Columns[i])
      case None => None
      case Some((pattern, invalid)) => if Matches(pattern, parts[pos]) then None else Some(invalid)
  }

  /** No column before the `i`-th raises an error. */
  predicate ValidBefore(parts: seq<string>, i: nat)
    requires i <= |Columns|
  {
    i == 0 || (ValidBefore(parts, i - 1) && ColumnError(i - 1, parts).None?)
  }

  lemma {:induction false} ValidBeforeShrinks(parts: seq<string>, i: nat, j: nat)
    requires j < i <= |Columns|
    requires ValidBefore(parts, i)
    ensures ValidBefore(parts, j) && ColumnError(j, parts).None?
    decreases i
  {
    if j < i - 1 {
      ValidBeforeShrinks(parts, i - 1, j);
    }
  }

  /** A column that raises an error keeps the whole line from being valid. */
  lemma NotValidAfterFailure(parts: seq<string>, i: nat)
    requires i < |Columns| && ColumnError(i, parts).Some?
    ensures !ValidBefore(parts, |Columns|)
  {
    if ValidBefore(parts, |Columns|) {
      ValidBeforeShrinks(parts, |Columns|, i);
    }
  }

  /** The `i`-th column is the first to raise an error, and it raises `kind`. */
  predicate FailsFirstAt(parts: seq<string>, i: nat, kind: ParseErrorType) {
    i < |Columns| && ValidBefore(parts, i) && ColumnError(i, parts) == Some(kind)
  }

  /** The record the columns spell out, once none of them raises an error. */
  function Assemble(parts: seq<string>, titleCase: string -> string): (q: RawQualifier)
    requires ValidBefore(parts, |Columns|)
  {
    ValidBeforeShrinks(parts, |Columns|, 2);
    ValidBeforeShrinks(parts, |Columns|, 3);
    ValidBeforeShrinks(parts, |Columns|, 5);
    ValidBeforeShrinks(parts, |Columns|, 6);
    ValidBeforeShrinks(parts, |Columns|, 8);
    var idText := parts[Position(2, parts)];
    var seatText := parts[Position(3, parts)];
    var roomText := parts[Position(5, parts)];
    var codeText := parts[Position(6, parts)];
    RawQualifier(
      id := DigitsValue(idText),
      surname := titleCase(parts[0]),
      firstName := titleCase(parts[1]),
      middleName := if HasMiddleColumn(parts) && parts[2] != "" then Some(titleCase(parts[2])) else None,
      seatNumber := DigitsValue(seatText),
      time := parts[Position(4, parts)],
      roomAssignment := DigitsValue(roomText),
      testCenterCode := DigitsValue(codeText),
      testCenterName := parts[Position(7, parts)],
      testCenterAddr := parts[Position(8, parts)])
  }

  /** The outcome the table prescribes for the pieces of a line: a record
      when every column is well formed, otherwise the error of the first
      column, in schema order, that is missing or malformed. */
  predicate Prescribes(parts: seq<string>, lineno: u32, titleCase: string -> string, r: Result<RawQualifier, ParseError>) {
    if ValidBefore(parts, |Columns|) then r == Success(Assemble(parts, titleCase))
    else r.Failure? && r.error.line == Some(lineno) && exists i :: 0 <= i < |Columns| && FailsFirstAt(parts, i, r.error.kind)
  }

  /** `parse_line` agrees with the table on every line. */
  lemma ParseLineFollowsSchema(line: string, lineno: u32, titleCase: string -> string)
    ensures lineno == U32_MAX ==> ParseLine(line, lineno, titleCase) == Failure(ParseError(TooBig, Some(lineno)))
    ensures lineno != U32_MAX ==> Prescribes(Split(Trim(line), '\t'), lineno, titleCase, ParseLine(line, lineno, titleCase))
  {
    if lineno != U32_MAX {
      ParseFieldsFollowsSchema(Split(Trim(line), '\t'), lineno, titleCase);
    }
  }

  lemma ParseFieldsFollowsSchema(parts: seq<string>, lineno: u32, titleCase: string -> string)
    ensures Prescribes(parts, lineno, titleCase, ParseFields(parts, lineno, titleCase))
  {
    if |parts| == 0 {
      NotValidAfterFailure(parts, 0);
      assert FailsFirstAt(parts, 0, MissingSurname);
    } else if |parts| == 1 {
      assert ColumnError(0, parts).None? && ValidBefore(parts, 1);
      NotValidAfterFailure(parts, 1);
      assert FailsFirstAt(parts, 1, MissingFirstName);
    } else {
      assert ColumnError(0, parts).None? && ValidBefore(parts, 1);
      assert ColumnError(1, parts).None? && ValidBefore(parts, 2);
      var slot := ApplicationId(parts, lineno, titleCase);
      if slot.Failure? {
        NotValidAfterFailure(parts, 2);
        assert FailsFirstAt(parts, 2, slot.error.kind);
      } else {
        assert ValidBefore(parts, 3);
        TailFollowsSchema(parts, lineno, titleCase, slot.value);
      }
    }
  }

  /** The columns after the application id, once it has been found. */
  lemma TailFollowsSchema(parts: seq<string>, lineno: u32, titleCase: string -> string, slot: IdSlot)
    requires |parts| >= 2
    requires ApplicationId(parts, lineno, titleCase) == Success(slot)
    requires ValidBefore(parts, 3)
    ensures Prescribes(parts, lineno, titleCase, ParseFields(parts, lineno, titleCase))
  {
    assert slot.next == Position(3, parts);
    var rest := ParseLogistics(parts, slot.next, lineno);
    LogisticsFollowsSchema(parts, lineno);
    if rest.Success? {
      var q := Assemble(parts, titleCase);
      assert q.id == slot.id && q.middleName == slot.middleName;
    }
  }

  /** The logistics columns, read from where the column table puts them. */
  lemma LogisticsFollowsSchema(parts: seq<string>, lineno: u32)
    requires |parts| >= 2
    requires ValidBefore(parts, 3)
    ensures var r := ParseLogistics(parts, Position(3, parts), lineno);
            && (r.Success? <==> ValidBefore(parts, |Columns|))
            && (r.Failure? ==> exists i :: 0 <= i < |Columns| && FailsFirstAt(parts, i, r.error.kind))
  {
    var k := Position(3, parts);
    assert Position(4, parts) == k + 1;
    if k >= |parts| || !Matches(SEAT_NUMBER_PATTERN, parts[k]) {
      NotValidAfterFailure(parts, 3);
      assert FailsFirstAt(parts, 3, ColumnError(3, parts).value);
    } else {
      assert ValidBefore(parts, 4);
      if k + 1 >= |parts| {
        NotValidAfterFailure(parts, 4);
        assert FailsFirstAt(parts, 4, MissingTime);
      } else {
        assert ValidBefore(parts, 5);
        CenterFollowsSchema(parts, lineno);
      }
    }
  }

  /** The test-centre columns: room assignment, code, name and address. */
  lemma CenterFollowsSchema(parts: seq<string>, lineno: u32)
    requires |parts| >= 2
    requires ValidBefore(parts, 5)
    ensures var r := ParseCenter(parts, Position(3, parts) + 2, lineno);
            && (r.Success? <==> ValidBefore(parts, |Columns|))
            && (r.Failure? ==> exists i :: 0 <= i < |Columns| && FailsFirstAt(parts, i, r.error.kind))
  {
    var j := Position(3, parts) + 2;
    assert Position(5, parts) == j;
    if j >= |parts| || !Matches(ROOM_ASSIGNMENT_PATTERN, parts[j]) {
      NotValidAfterFailure(parts, 5);
      assert FailsFirstAt(parts, 5, ColumnError(5, parts).value);
    } else {
      assert ValidBefore(parts, 6);
      CodeFollowsSchema(parts, lineno);
    }
  }

  lemma CodeFollowsSchema(parts: seq<string>, lineno: u32)
    requires |parts| >= 2
    requires ValidBefore(parts, 6)
    requires Position(3, parts) + 2 < |parts|
    requires Matches(ROOM_ASSIGNMENT_PATTERN, parts[Position(3, parts) + 2])
    ensures var r := ParseCenter(parts, Position(3, parts) + 2, lineno);
            && (r.Success? <==> ValidBefore(parts, |Columns|))
            && (r.Failure? ==> exists i :: 0 <= i < |Columns| && FailsFirstAt(parts, i, r.error.kind))
  {
    var j := Position(3, parts) + 2;
    assert Position(6, parts) == j + 1;
    if j + 1 >= |parts| || !Matches(TEST_CENTER_CODE_PATTERN, parts[j + 1]) {
      NotValidAfterFailure(parts, 6);
      assert FailsFirstAt(parts, 6, ColumnError(6, parts).value);
    } else {
      assert ValidBefore(parts, 7);
      NameAndAddressFollowSchema(parts, lineno);
    }
  }

  lemma NameAndAddressFollowSchema(parts: seq<string>, lineno: u32)
    requires |parts| >= 2
    requires ValidBefore(parts, 7)
    requires Position(3, parts) + 3 < |parts|
    requires Matches(ROOM_ASSIGNMENT_PATTERN, parts[Position(3, parts) + 2])
    requires Matches(TEST_CENTER_CODE_PATTERN, parts[Position(3, parts) + 3])
    ensures var r := ParseCenter(parts, Position(3, parts) + 2, lineno);
            && (r.Success? <==> ValidBefore(parts, |Columns|))
            && (r.Failure? ==> exists i :: 0 <= i < |Columns| && FailsFirstAt(parts, i, r.error.kind))
  {
    var j := Position(3, parts) + 2;
    assert Position(7, parts) == j + 2 && Position(8, parts) == j + 3;
    if j + 2 >= |parts| {
      NotValidAfterFailure(parts, 7);
      assert FailsFirstAt(parts, 7, MissingTestCenterName);
    } else {
      assert ValidBefore(parts, 8);
      if j + 3 >= |parts| {
        NotValidAfterFailure(parts, 8);
        assert FailsFirstAt(parts, 8, MissingTestCenterAddr);
      } else {
        assert ValidBefore(parts, |Columns|);
      }
    }
  }
}

=== FILE: text.dfy ===
/** The two string operations `parse_line` applies before it reads any field:
    Rust's `str::trim` and `str::split('\t')`. */
module Text {

  /** Rust's `char::is_whitespace`: the Unicode White_Space property.
      `str::trim` removes exactly these characters from both ends. */
  predicate IsWhitespace(c: char) {
    || ('\t' <= c <= '\r')
    || c == ' '
    || c == '\U{85}'
    || c == '\U{A0}'
    || c == '\U{1680}'
    || ('\U{2000}' <= c <= '\U{200A}')
    || c == '\U{2028}'
    || c == '\U{2029}'
    || c == '\U{202F}'
    || c == '\U{205F}'
    || c == '\U{3000}'
  }

  /** True when `s` neither starts nor ends with whitespace. */
  predicate IsTrimmed(s: string) {
    |s| == 0 || (!IsWhitespace(s[0]) && !IsWhitespace(s[|s| - 1]))
  }

  /** `str::trim_end`: the longest prefix of `s` not ending in whitespace. */
  function TrimEnd(s: string): (r: string)
    ensures |r| <= |s| && r == s[..|r|]
    ensures |r| == 0 || !IsWhitespace(r[|r| - 1])
    ensures forall k :: |r| <= k < |s| ==> IsWhitespace(s[k])
    decreases |s|
  {
    if |s| > 0 && IsWhitespace(s[|s| - 1]) then TrimEnd(s[..|s| - 1]) else s
  }

  /** `str::trim_start`: the longest suffix of `s` not starting with whitespace. */
  function TrimStart(s: string): (r: string)
    ensures |r| <= |s| && r == s[|s| - |r|..]
    ensures |r| == 0 || !IsWhitespace(r[0])
    ensures forall k :: 0 <= k < |s| - |r| ==> IsWhitespace(s[k])
    decreases |s|
  {
    if |s| > 0 && IsWhitespace(s[0]) then TrimStart(s[1..]) else s
  }

  /** `str::trim`: what is left of `s` after removing leading and trailing
      whitespace. */
  function Trim(s: string): (r: string)
    ensures IsTrimmed(r) && |r| <= |s|
  {
    var e := TrimEnd(s);
    var r := TrimStart(e);
    assert |r| > 0 ==> r[|r| - 1] == e[|e| - 1];
    r
  }

  /** The trimmed text is a slice of `s`, and every character cut off on
      either side is whitespace. */
  lemma TrimIsSlice(s: string)
    ensures var r := Trim(s);
            exists i :: 0 <= i <= |s| - |r|
                     && r == s[i..][..|r|]
                     && (forall k :: 0 <= k < i ==> IsWhitespace(s[k]))
                     && (forall k :: i + |r| <= k < |s| ==> IsWhitespace(s[k]))
  {
    var e := TrimEnd(s);
    var r := TrimStart(e);
    var i := |e| - |r|;
    assert e == s[..|e|] && r == e[i..];
    assert r == s[i..][..|r|];
    assert forall k :: 0 <= k < i ==> IsWhitespace(s[k]) by {
      forall k | 0 <= k < i
        ensures IsWhitespace(s[k])
      {
        assert s[k] == e[k];
      }
    }
    assert i + |r| == |e|;
  }

  /** Appending one whitespace character never changes the trimmed text. */
  lemma TrimEndAppendWhitespace(s: string, c: char)
    requires IsWhitespace(c)
    ensures TrimEnd(s + [c]) == TrimEnd(s)
  {
    assert (s + [c])[..|s|] == s;
  }

  lemma TrimAppendWhitespace(s: string, c: char)
    requires IsWhitespace(c)
    ensures Trim(s + [c]) == Trim(s)
  {
    TrimEndAppendWhitespace(s, c);
  }

  /** Trimming text that is already trimmed is the identity. */
  lemma TrimOfTrimmed(s: string)
    requires IsTrimmed(s)
    ensures Trim(s) == s
  {
  }

  /** Text made of whitespace only trims to the empty string. */
  lemma TrimBlank(s: string)
    requires forall k :: 0 <= k < |s| ==> IsWhitespace(s[k])
    ensures Trim(s) == ""
  {
  }

  /** Number of occurrences of `c` in `s`. */
  function Occurrences(s: string, c: char): nat
    decreases |s|
  {
    if |s| == 0 then 0 else (if s[0] == c then 1 else 0) + Occurrences(s[1..], c)
  }

  /** The inverse of `Split`: the pieces with `sep` between consecutive ones. */
  function Join(parts: seq<string>, sep: char): string
    decreases |parts|
  {
    if |parts| == 0 then ""
    else if |parts| == 1 then parts[0]
    else parts[0] + [sep] + Join(parts[1..], sep)
  }

  /** `str::split(sep)` collected: the maximal `sep`-free pieces of `s`, in
      order. There is always one more piece than there are separators, so
      even the empty string yields one (empty) piece. */
  function Split(s: string, sep: char): (parts: seq<string>)
    ensures |parts| == Occurrences(s, sep) + 1
    ensures forall i :: 0 <= i < |parts| ==> sep !in parts[i]
    ensures Join(parts, sep) == s
    decreases |s|
  {
    if |s| == 0 then [""]
    else
      var tail := Split(s[1..], sep);
      if s[0] == sep then [""] + tail
      else [[s[0]] + tail[0]] + tail[1..]
  }

  lemma {:induction false} SplitWithoutSeparator(p: string, sep: char)
    requires sep !in p
    ensures Split(p, sep) == [p]
    decreases |p|
  {
    if |p| > 0 {
      SplitWithoutSeparator(p[1..], sep);
      assert [p[0]] + p[1..] == p;
    }
  }

  lemma {:induction false} SplitAfterPiece(p: string, rest: string, sep: char)
    requires sep !in p
    ensures Split(p + [sep] + rest, sep) == [p] + Split(rest, sep)
    decreases |p|
  {
    var s := p + [sep] + rest;
    if |p| == 0 {
      assert s[1..] == rest;
    } else {
      assert s[1..] == p[1..] + [sep] + rest;
      SplitAfterPiece(p[1..], rest, sep);
      assert [p[0]] + p[1..] == p;
    }
  }

  /** Splitting joined `sep`-free pieces gives the pieces back: together with
      `Join(Split(s, sep), sep) == s` this makes the two mutually inverse. */
  lemma {:induction false} SplitJoin(parts: seq<string>, sep: char)
    requires |parts| >= 1
    requires forall i :: 0 <= i < |parts| ==> sep !in parts[i]
    ensures Split(Join(parts, sep), sep) == parts
    decreases |parts|
  {
    if |parts| == 1 {
      SplitWithoutSeparator(parts[0], sep);
    } else {
      SplitJoin(parts[1..], sep);
      SplitAfterPiece(parts[0], Join(parts[1..], sep), sep);
      assert [parts[0]] + parts[1..] == parts;
    }
  }
}

=== FILE: types.dfy ===
/** The decoded record of one qualifier line (src/types.rs). */
module Types {
  import opened Wrappers

  const U32_MAX: int := 0xFFFF_FFFF
  const U64_MAX: int := 0xFFFF_FFFF_FFFF_FFFF

  /** Rust's `u32` and `u64`: unbounded integers restricted to their range. */
  type u32 = x: int | 0 <= x <= U32_MAX
  type u64 = x: int | 0 <= x <= U64_MAX

  /** `RawQualifier`: one examinee's logistics, built atomically from one line. */
  datatype RawQualifier = RawQualifier(
    id: u64,
    surname: string,
    firstName: string,
    middleName: Option<string>,
    seatNumber: u32,
    time: string,
    roomAssignment: u32,
    testCenterCode: u32,
    testCenterName: string,
    testCenterAddr: string
  )
}

=== FILE: wrappers.dfy ===
/** Failure-compatible Option and Result, so that the decoder can use `:-`
    where the Rust source uses `?`. */
module Wrappers {

  datatype Option<+T> = None | Some(value: T) {

    predicate IsFailure() {
      None?
    }

    function PropagateFailure<U>(): Option<U>
      requires None?
    {
      None
    }

    function Extract(): T
      requires Some?
    {
      value
    }
  }

  datatype Result<+T, +E> = Success(value: T) | Failure(error: E) {

    predicate IsFailure() {
      Failure?
    }

    function PropagateFailure<U>(): Result<U, E>
      requires Failure?
    {
      Failure(error)
    }

    function Extract(): T
      requires Success?
    {
      value
    }
  }
}
